=== FILE: README.md ===
# Halloween Warplets: the UI state machines, in Dafny

Halloween Warplets is a mini app. A user connects a wallet, picks one of the
Warplet NFTs they own, has an image provider draw a "cutified" Halloween
version of it, and mints that image as a new NFT. The contract owner gets a
treasury panel to withdraw the collected fees.

The logic in this repository is three UI state machines held inside React
components. This project pulls each one out into an immutable state record
with pure transition functions:

- **Mutation component**, split into two modules:
  - `mutation.dfy`, module `Mutation`: the status `pending → generating → ready | error`, the generation effect and its cancellation, retry, remix, and when the image and the buttons are shown.
  - `minting.dfy`, module `Minting`: the single-flight mint guard, the four-step mint pipeline, the metadata record, the alert text for a failed mint, the success modal and share.
- **Admin panel** (`admin.dfy`, module `Admin`): the tri-state ownership gate, the owner check, the balance load and refresh, the withdraw action with its error classification, and the address and hash abbreviations.
- **Controller** (`workflow.dfy`, module `Workflow`): environment detection, the mini-app hooks, the bounded auto-connect loop, the owned-NFT load with auto-selection, the selection click, and the view cascade.

Shared pieces:

- `outcomes.dfy` (module `Outcomes`):
  - every external call is an oracle outcome, `Ok(value)` or `Err(failure)`;
  - a failure carries the `shortMessage` and `message` fields the code reads.
- `session.dfy` (module `Session`): the wallet session, connected flag and address, as both the admin panel and the controller read it.
- `jsstring.dfy` (module `JsString`): `toLowerCase` on ASCII letters, `includes` and `slice`, with JavaScript's semantics.
- `scenarios.dfy` (module `Scenarios`): runs that cross the three machines.

Asynchrony is modelled as a begin transition and a completion transition, with the oracle outcome passed to the completion. The closure flags `cancelled` (mutation component) and `mounted` (admin panel) become an epoch counter:

- every run of the effect, and its cleanup, advances the epoch;
- a request carries the epoch it started in as its ticket;
- a completion whose ticket is stale changes nothing.

Event-replay functions (`Minting.Replay`, `Workflow.ReplayApp`) let invariants be proved over every sequence of events.

Behaviour of the code worth knowing when reading the model:

- **Auto-connect cap.** The cap of three attempts bounds one run of the auto-connect effect. The run's `finally` clears `autoConnecting`, which is one of the effect's dependencies, so a run that did not connect is followed by another run (`Workflow.FailedRunRearms`).
- **Captured connector list.** An iteration that finds no Farcaster connector waits and looks again in the connector array the run captured when it started. A connector missing at the start of a run therefore stays missing for the whole run.
- **The selection outlives a wallet switch.** The owned-NFT effect never clears the selected NFT. After one address auto-selects its single NFT and the wallet switches to an address owning none or several, the previous address's NFT is still shown (see Findings).
- **Late owned-NFT loads are applied.** The owned-NFT load carries no cancellation flag, so a load started for a previous address that settles after the switch still replaces the list and may select an NFT. `Workflow.CompleteOwnedLoad` accordingly takes no ticket.
- **A mint outlives its component.** Showing the loading view (on every owned-NFT load, that is on every address change or reconnect) or the connect view unmounts the mutation component. A mint pipeline already running keeps awaiting the mint call, and its `finally` only updates the destroyed instance. The remounted component starts from its initial state with `isMinting` false, so its enabled button can start a second pipeline while the first still runs, and the first pipeline's success modal is never shown (`Minting.RemountedInstanceCanMint`).
- **Late retry and remix results are applied.** Retry and remix completions carry no cancellation flag. One that settles after the selected NFT changed, while the component stays mounted, still becomes the shown result, and a mint then uploads it under the new NFT's metadata.
- **Failed retry keeps the old result.** A failed generation or retry sets `error` but does not clear the held result. The result is only hidden, because status is `error`.

## Model

| member | source | states |
|---|---|---|
| Outcomes.FailureText | src/components/AdminPanel.tsx:43 | the shown error is `shortMessage` if non-empty, else `message` if non-empty, else the fallback; never empty when the fallback is not |
| Mutation.GenerationEffect | src/components/MutationComponent.tsx:47-62 | every run cancels the outstanding generation; with a non-empty NFT image it enters `generating`, clears the error and requests the initial prompt on the original image, strength 75 %, empty negative prompt, no custom prompt; with no image it starts nothing; nothing else in the state changes |
| Mutation.CancelGeneration | src/components/MutationComponent.tsx:80-82 | the cleanup moves the epoch on and changes nothing else |
| Mutation.CompleteGeneration | src/components/MutationComponent.tsx:64-76 | a stale completion is a no-op; success gives `ready` with the new result; failure gives `error` with the fixed message |
| Mutation.StaleGenerationDiscarded | src/components/MutationComponent.tsx:50-83 | a completion issued before a token change or an unmount leaves the later state unchanged, whatever it carries |
| Mutation.GenerationFailureHidesProviderError | src/components/MutationComponent.tsx:71-76 | which provider error occurred makes no difference to the state after a failed generation or retry |
| Mutation.BeginRetry | src/components/MutationComponent.tsx:87-97 | retry enters `generating`, clears the error, and always requests the retry prompt on the ORIGINAL image, strength 75 %, empty negative prompt, no custom prompt; nothing else changes |
| Mutation.CompleteRetry | src/components/MutationComponent.tsx:99-108 | retry success gives `ready` with the new result and changes nothing else (the error stays as it was); failure gives `error` with the fixed message and changes nothing else, keeping the held result |
| Mutation.RemixSource | src/components/MutationComponent.tsx:121 | remix draws on the prior result's mutated image when there is a prior result with a non-empty image; in every other case (no prior result, or an empty image URL, as JavaScript `||` treats it) on the original |
| Mutation.BeginRemix | src/components/MutationComponent.tsx:111-138 | remix hides the result, clears the error, holds the previous result, and requests the divergence prompt on `RemixSource`, strength 75 %, empty negative prompt; nothing else changes |
| Mutation.CompleteRemix | src/components/MutationComponent.tsx:140-157 | success replaces the result; failure with a prior result restores it, in `ready`, with no error; failure with none ends in `error` with the remix message and the result as it was; only status, result and error ever change |
| Mutation.FailedRemixKeepsPrior | src/components/MutationComponent.tsx:145-157 | a remix started from a shown image and then failed ends `ready`, showing exactly the prior result, with no error |
| Mutation.GenerationOutcomeDecidesView | src/components/MutationComponent.tsx:300-321 | after success the image is shown and remix/mint are offered unless minting; after failure the retry card shows and mint is disabled |
| Minting.BeginMintAsWritten | src/components/MutationComponent.tsx:161-165 | as written, the mint starts exactly when the guard passes, and a rejected call clears `isMinting` |
| Minting.BeginMint | src/components/MutationComponent.tsx:163-165 | corrected guard: the mint starts exactly when a result exists, status is `ready` and no mint is in flight; a rejected call changes nothing |
| Minting.EnabledClickAgrees | src/components/MutationComponent.tsx:161-165 | on every click the enabled mint button (line 411) lets through, the handler as written and the corrected guard give the same state and both start the pipeline |
| Minting.DisabledClickIsIgnoredByGuard | src/components/MutationComponent.tsx:161-165 | the corrected guard leaves the state unchanged when the button is disabled, matching a click that a disabled button never delivers |
| Minting.AsWrittenStartsSecondPipeline | src/components/MutationComponent.tsx:161-165 | as written: a start, then a call rejected because a mint is in flight, then a third call that starts a second pipeline before the first settles |
| Minting.CorrectedGuardHoldsWhileMinting | src/components/MutationComponent.tsx:163 | with the corrected guard, calls made while a mint is in flight change nothing and start nothing |
| Minting.BuildMetadata | src/components/MutationComponent.tsx:182-199 | metadata image is the uploaded image URI; origin is the source contract and token id; attributes are the source's, in order, plus exactly one Halloween Style/Cutified trait at the end |
| Minting.MetadataNamesSource | src/components/MutationComponent.tsx:180-181 | the source name is recovered by stripping "Cutified " from the name and "Adorable Halloween version of " from the description |
| Minting.RunPipeline | src/components/MutationComponent.tsx:175-208 | fetch, image upload, metadata upload and mint sit at positions 0 to 3 and nowhere else; the run stops at the first failed step with that step's failure (mint failure included); with the three uploads successful the fourth step is the mint call with the origin and the metadata URI; the metadata uploaded is built from the uploaded image URI; success reports hash, token id, image URI and name |
| Minting.PipelineFollowsPlan | src/components/MutationComponent.tsx:175-208 | the steps attempted are exactly the four-step plan cut after the first failed step, as an independently written sequence; a run cut short fails |
| Minting.UploadFailureStopsPipeline | src/components/MutationComponent.tsx:176-189 | a failed image upload means no metadata upload and no mint call |
| Minting.UserRejectedMentionsRejected | src/components/MutationComponent.tsx:237-240 | any message containing "User rejected" also contains "rejected", so the handler's first test adds nothing to its second |
| Minting.MintErrorMessage | src/components/MutationComponent.tsx:235-244 | a message containing "rejected" gives "Transaction cancelled"; any other non-empty message passes through verbatim; a missing or empty one gives "Mint failed"; never empty |
| Minting.CompleteMint | src/components/MutationComponent.tsx:217-249 | every settled mint ends with `isMinting` false; success stores the data and opens the modal and changes nothing else; failure yields the classified alert and changes nothing else |
| Minting.CloseModal | src/components/MutationComponent.tsx:268-271 | closing clears both the modal flag and the success data and touches nothing else |
| Minting.Share | src/components/MutationComponent.tsx:252-266 | without success data there is no post; otherwise the post names the minted asset and embeds the uploaded image and then the app link; the text after the name is the component's literal character for character, including the mis-decoded emoji it stores (U+F8FF ü é É ‚ ú ®) |
| Minting.RemountedInstanceCanMint | src/components/MutationComponent.tsx:30-36 | a remounted instance starts from the initial state, and after its generation succeeds its enabled button starts a pipeline, whatever the unmounted instance left running |
| Minting.InitIsConsistent | src/components/MutationComponent.tsx:30-36 | the initial state satisfies the invariant with no mint in flight |
| Minting.ApplyKeepsConsistent | src/components/MutationComponent.tsx:161-249 | every event preserves the invariant: `ready` has a result, the modal is open iff success data exists, `isMinting` iff one pipeline is in flight |
| Minting.ReplayKeepsSingleFlight | src/components/MutationComponent.tsx:411 | over any event sequence of one mounted instance, with mint clicks delivered by the real button to the handler as written, at most one of its pipelines is in flight, and the mint button is enabled exactly when the handler would proceed |
| Admin.SameAddressIffCaseless | src/components/AdminPanel.tsx:39 | the owner check holds exactly when the addresses have equal length and agree character by character up to ASCII case |
| Admin.SameAddressIsEquivalence | src/components/AdminPanel.tsx:39 | the owner check is reflexive, symmetric and transitive |
| Admin.ShortAddr | src/components/AdminPanel.tsx:20-23 | no owner (or empty) gives ""; otherwise the first six characters, "…", and the last four (JS slice clamping for short strings) |
| Admin.ShortAddrOfFullAddress | src/components/AdminPanel.tsx:20-23 | an address of ten or more characters abbreviates to exactly `a[..6] + "…" + a[|a|-4..]`, eleven characters |
| Admin.WithdrawSentText | src/components/AdminPanel.tsx:163-165 | the success text embeds the first eight and last six characters of the hash |
| Admin.Render | src/components/AdminPanel.tsx:54-65 | controls exactly when connected and the stored ownership flag is true; skeleton exactly while it is unknown; nothing when disconnected or it is false. Whether the stored flag belongs to the connected address depends on the load effect (see Findings) |
| Admin.InitEffectAsWritten | src/components/AdminPanel.tsx:25-31 | as written: the load starts exactly when connected with an address, clearing error and success and disabling both buttons; an earlier load is always dropped; the previous address's ownership flag is kept |
| Admin.InitEffect | src/components/AdminPanel.tsx:25-31 | corrected: as above, and the ownership flag and owner address are forgotten whenever the effect runs |
| Admin.AsWrittenSwitchKeepsControls | src/components/AdminPanel.tsx:25-56 | as written: owner loads, the wallet switches to another address, the reload fails; the other address sees the controls with an enabled withdraw |
| Admin.CorrectedGateWaitsForOwnerCheck | src/components/AdminPanel.tsx:25-65 | corrected: from any prior state, the load for a new address shows the skeleton, and once settled the controls appear exactly when that address's check succeeded and named it the owner |
| Admin.CompleteInit | src/components/AdminPanel.tsx:32-46 | a load settling after unmount is dropped; success records the owner, the case-insensitive ownership and the balance; failure shows the fallback text and keeps owner, ownership, balance and success text; loading ends; nothing else changes |
| Admin.BeginRefresh | src/components/AdminPanel.tsx:134-137 | while refreshing, neither refresh nor withdraw can be pressed |
| Admin.CompleteRefresh | src/components/AdminPanel.tsx:138-149 | the read balance replaces the shown one; a failure shows the fallback text and keeps the balance; loading ends; nothing else changes |
| Admin.ClassifyWithdraw | src/components/AdminPanel.tsx:172-181 | on the lower-cased message: "user rejected" means cancelled, checked first; otherwise "unauthorized" or "onlyowner" means not-owner; otherwise verbatim |
| Admin.ClassifyIgnoresCase | src/components/AdminPanel.tsx:172-176 | the category of a message equals the category of its lower-cased form |
| Admin.WithdrawErrorMessage | src/components/AdminPanel.tsx:170-181 | the shown error is the category's fixed text, or the error's own text (falling back to "Withdrawal failed."); never empty |
| Admin.BeginWithdraw | src/components/AdminPanel.tsx:156-160 | a withdraw in flight disables a second withdraw; error and success are cleared |
| Admin.CompleteWithdraw | src/components/AdminPanel.tsx:161-184 | `withdrawing` always ends false; success sets the text and re-reads the balance; a failed withdraw or re-read shows the classified error; only `withdrawing`, the success text, the balance and the error ever change |
| Admin.WithdrawBalanceComesFromContract | src/components/AdminPanel.tsx:166-168 | after a successful withdraw the balance is the re-read one, independent of what was shown before |
| Admin.OwnerSeesEnabledWithdraw | src/components/AdminPanel.tsx:33-39 | the owner connecting (any case) sees skeleton then controls; refresh is enabled; withdraw is enabled iff the balance is positive |
| Admin.NonOwnerSeesNothing | src/components/AdminPanel.tsx:54-56 | any other connected address renders nothing once ownership loads |
| Workflow.DetectedEnvironment | src/App.tsx:99-108 | the app is a mini app only when the host answered true; an absent answer or a thrown error gives false |
| Workflow.ResolveEnvironment | src/App.tsx:108 | after detection `isMiniApp` is set, and nothing else changes |
| Workflow.MiniAppReady | src/App.tsx:114-130 | outside a mini app the host is asked nothing; inside, ready then add-mini-app are both requested, whatever throws; the state never changes |
| Workflow.BeginAutoConnect | src/App.tsx:135-136 | a run starts exactly when in a mini app, not connected and no run is in flight, and then raises the in-flight flag |
| Workflow.FinishAutoConnect | src/App.tsx:162-164 | the in-flight flag is always cleared at the end of a run |
| Workflow.FindFarcaster | src/App.tsx:140-142 | finds a connector with id "farcasterFrame" from the registry, and finds none exactly when no such connector exists |
| Workflow.RunAutoConnect | src/App.tsx:139-159 | one to three iterations; only the "farcasterFrame" connector is passed to connect; with no such connector nothing connects and all three iterations wait; stops at the first resolved connect; every unresolved iteration waits |
| Workflow.FailedRunRearms | src/App.tsx:135-169 | a run blocks any further run while its flag is raised, and after it clears the effect's entry test passes again |
| Workflow.ToNftData | src/App.tsx:183-190 | the fixed collection contract; name defaults to "Warplet #" + token id; description to ""; attributes to []; token id and image copied |
| Workflow.BeginOwnedLoadAsWritten | src/App.tsx:173-176 | as written: the owned-NFT fetch starts exactly when connected with an address, setting loading and clearing the load error; the selection is kept |
| Workflow.BeginOwnedLoad | src/App.tsx:173-176 | corrected: as above, and the selection is forgotten whenever the effect runs |
| Workflow.AsWrittenSwitchKeepsPreviousNft | src/App.tsx:172-200 | as written: after one address's single NFT is selected and the wallet switches, a load of no NFT or of two NFTs still shows the previous address's NFT |
| Workflow.CorrectedLoadDecidesView | src/App.tsx:172-200 | corrected: from any prior state, the load alone decides the view: error card, empty state, grid, or the mutation view of the single NFT |
| Workflow.BeginOwnedRetry | src/App.tsx:494-498 | the "Cast Again" fetch starts exactly when an address is present |
| Workflow.CompleteOwnedLoad | src/App.tsx:177-197 | one NFT becomes the selection; any other count keeps it; failure sets the fixed message and keeps the list; loading always ends |
| Workflow.Select | src/App.tsx:563-572 | a click selects the record built from the clicked NFT and changes nothing else |
| Workflow.ViewOf | src/App.tsx:203-633 | each view holds exactly under its condition in the priority order: loading; error; not connected with the environment unknown, a mini app, or a browser; connected with no selection and a load error, no NFT, several NFTs (the grid) or one NFT (preparing); and the mutation view with the selection |
| Workflow.SingleOwnedAutoSelects | src/App.tsx:181-191 | one owned NFT, from the load or the retry, leads to the mutation view with no click |
| Workflow.SeveralOwnedNeedAClick | src/App.tsx:548-572 | with no NFT selected yet, several owned NFTs show the grid, and the clicked one becomes the mutation view |
| Workflow.NoneOwnedShowsEmpty | src/App.tsx:528-547 | with no NFT selected yet, no owned NFT shows the empty state and selects nothing |
| Workflow.EnvironmentStaysResolved | src/App.tsx:87-111 | once resolved, `isMiniApp` is never unknown again under any events, and the never-assigned error stays as it was |
| Scenarios.RemixedImageIsMinted | src/components/MutationComponent.tsx:121-189 | generate A→B, remix B→C, mint: the remix used B, the pipeline fetches C, and its third step uploads the metadata built from C's uploaded URI |
| Scenarios.FailedRemixStillMintsPrior | src/components/MutationComponent.tsx:152-176 | after a failed remix the guard passes and the pipeline mints the pre-remix image |
| Scenarios.SelectedNftFeedsGeneration | src/App.tsx:632 | the selected NFT's image is what generation starts from, and its origin is the collection contract and token id |

## Findings

| source | as written | input that shows it | evidently intended | confidence | as-written member | corrected member |
|---|---|---|---|---|---|---|
| src/components/MutationComponent.tsx:161-165 | the guard's early `return` is inside the `try` whose `finally` runs `setIsMinting(false)`, so a call rejected because a mint is in flight clears the in-flight flag | state `ready` with a result and `isMinting` true (a pipeline running); call the handler, then call it again: the second call starts another pipeline before the first settles | a rejected call leaves `isMinting` as it was, so at most one pipeline runs at a time | not executed; the mint button is disabled while minting, so only a direct call of the handler reaches it | Minting.AsWrittenStartsSecondPipeline | Minting.BeginMint |
| src/components/AdminPanel.tsx:25-31 | the load effect never resets `isOwner`, so after the wallet switches from the owner to another address the panel keeps rendering the controls during the reload, and after a failed reload with the previous balance and an enabled withdraw button | load as owner "0xAA" with balance 5, switch to "0xBB", reload fails | the gate waits for the ownership check of the connected address before showing any state-changing control | not executed; the contract's own owner check still rejects the withdraw transaction | Admin.AsWrittenSwitchKeepsControls | Admin.InitEffect |
| src/App.tsx:172-200 | the owned-NFT effect never clears the selected NFT, so after a wallet switch the previous address's NFT stays in the mutation view whatever the new address owns | one address owns exactly one NFT, which is auto-selected; switch to an address owning none (or two) | the view follows the connected address's own NFTs: the empty state, or the grid | not executed | Workflow.AsWrittenSwitchKeepsPreviousNft | Workflow.BeginOwnedLoad |

`Minting.BeginMintAsWritten` models the code as written. `Minting.BeginMint` is the corrected guard. In the event replay, a mint click is a click on the component's real button: it reaches the handler as written only while the button is enabled. On those clicks the handler as written and the corrected guard agree (`Minting.EnabledClickAgrees`), and the corrected guard ignores a click on a disabled button (`Minting.DisabledClickIsIgnoredByGuard`). So `Minting.ReplayKeepsSingleFlight` proves single flight within one mounted instance used through its button; the defect needs a direct call of the handler. Across a remount there is no single flight at all (see the bullet on mints outliving their component).

The admin and controller scenarios (`Admin.OwnerSeesEnabledWithdraw`, `Admin.NonOwnerSeesNothing`, `Workflow.SingleOwnedAutoSelects`, `Workflow.SeveralOwnedNeedAClick`, `Workflow.NoneOwnedShowsEmpty`) and the controller's event replay use the effects as written (`Admin.InitEffectAsWritten`, `Workflow.BeginOwnedLoadAsWritten`). The corrected effects appear only in the lemmas that state the intended behaviour (`Admin.CorrectedGateWaitsForOwnerCheck`, `Workflow.CorrectedLoadDecidesView`).

## Left out

- Minting.ReplayKeepsSingleFlight: single flight is stated for one mounted instance only. An unmount ends a replay, and the pipelines an unmounted instance leaves running are not counted by the next instance's replay, because the program itself keeps no record of them (`Minting.RemountedInstanceCanMint`).
- All markup, styling and animation. The model picks which view is shown (`Workflow.View`, `Admin.Panel`, the `Mutation` visibility predicates), not what it looks like.
- The image service (`src/services/imageGeneration.ts`) is not part of this model. It wraps the provider SDK, `fetch`, `FileReader` and base64 conversion, and enters only as an `Outcome<GeneratedImage>`.
- The code behind `blobFromUrl`, `uploadImageBlob`, `uploadMetadata`, `mintMutant`, `getContractOwner`, `getContractBalance`, `withdrawTreasury`, `fetchUserWarplets` and the wallet library's `connect` is not part of this model. Each is an oracle outcome. Whether `connect` can reject is the wallet library's choice; the model allows both.
- The host-context hook's loading flag is a parameter of `Workflow.ViewOf`.
- Haptic feedback, `composeCast`, `sdk.actions.ready` and `addMiniApp` are left out, because their failures are caught and only logged. `Workflow.MiniAppReady` records which host requests are made, and `Minting.Share` records the post that is composed.
- The `console` logging is left out.
- The 400 ms backoff is left out: only the count of waits is kept, not time.
- React scheduling and interleaving are left out. Asynchronous calls are split into begin and completion transitions. The `cancelled`/`mounted` flags are epoch tickets.
- Admin init runs `Promise.all` over the owner read and the balance read. It is modelled as one combined outcome, because which rejection wins is a matter of timing.
- Balances are whole wei. The decimal text from `formatEther` and `Number(...).toFixed(4)` is not modelled. The withdraw button's `Number(balanceEth) <= 0` test becomes `balance == 0`.
- The mutation-fee display, and the fallback fee text, are read-only display and left out.
- `toLowerCase` is modelled on ASCII letters only; Unicode case folding is out of scope.
- `BigInt(nftData.tokenId)` is not modelled. The token id is carried as the NFT's identifier string, and a conversion failure (which would reach the mint error path) is not modelled.
- The `"no_warplet:"` error view is left out, because `error` is never assigned after its initial `null`. The cascade keeps one generic error branch, and `Workflow.EnvironmentStaysResolved` shows the field never changes.
- The image-load fallback inside the success modal (`onError` swapping in the mutated image) is left out, because it is markup behaviour.
- `MutationComponent` rendering nothing without `nftData` is left out, because the controller only mounts it with a selection.
- The farcaster id shown in a few cards is display only and left out.
- The remix's long custom prompt text is the tag `AlternativeCostume`; its wording is not reproduced.
- Workflow.FindFarcaster: the contract says the connector found has the right id; it does not also state that it is the first such connector in the registry, as `Array.prototype.find` returns.

=== FILE: admin.dfy ===
/** The treasury admin panel: the ownership and balance load, the tri-state
    ownership gate that decides what is rendered, the refresh and withdraw
    actions with their enabled conditions, the withdraw-error classification
    and the address and hash abbreviations.

    The balance is kept as a whole number of wei; the panel's decimal display
    is not modelled. The effect's `mounted` flag is modelled as in the
    mutation component: a load carries the epoch it started in, and one that
    settles after the epoch moved on is dropped. */
module Admin {
  import opened Outcomes
  import opened JsString
  import opened Session

  datatype AdminState = AdminState(
    isOwner: Option<bool>,
    ownerAddress: Option<string>,
    balance: nat,
    loading: bool,
    withdrawing: bool,
    error: Option<string>,
    success: Option<string>,
    epoch: nat)

  /** What the panel renders. */
  datatype Panel = Hidden | Skeleton | Controls

  datatype WithdrawCategory = Cancelled | NotOwner | Verbatim

  const Ellipsis: string := "\U{2026}"
  const LoadFailedFallback: string := "Failed to load admin data."
  const RefreshFailedFallback: string := "Failed to refresh balance."
  const WithdrawFailedFallback: string := "Withdrawal failed."
  const WithdrawCancelledMessage: string := "Transaction cancelled."
  const NotOwnerMessage: string := "Only the owner can withdraw."
  const WithdrawSentPrefix: string := "Withdrawal sent! Tx: "

  function Init(): AdminState
  {
    AdminState(None, None, 0, false, false, None, None, 0)
  }

  /** Address equality after lower-casing both sides. */
  predicate SameAddress(a: string, b: string)
  {
    ToLower(a) == ToLower(b)
  }

  /** Two addresses are the same exactly when they have the same length and
      agree character by character up to the case of ASCII letters. */
  lemma SameAddressIffCaseless(a: string, b: string)
    ensures SameAddress(a, b) <==> |a| == |b| && forall i :: 0 <= i < |a| ==> LowerChar(a[i]) == LowerChar(b[i])
  {
    if |a| == |b| && forall i :: 0 <= i < |a| ==> LowerChar(a[i]) == LowerChar(b[i]) {
      assert forall i :: 0 <= i < |a| ==> ToLower(a)[i] == ToLower(b)[i];
    }
  }

  /** The owner check is an equivalence: reflexive, symmetric, transitive. */
  lemma SameAddressIsEquivalence(a: string, b: string, c: string)
    ensures SameAddress(a, a)
    ensures SameAddress(a, b) ==> SameAddress(b, a)
    ensures SameAddress(a, b) && SameAddress(b, c) ==> SameAddress(a, c)
  {
  }

  /** The owner badge: the first six characters, an ellipsis and the last
      four, or nothing when the owner is not known. */
  function ShortAddr(owner: Option<string>): (r: string)
    ensures !Truthy(owner) ==> r == ""
    ensures Truthy(owner) ==>
              r == owner.value[..Min(6, |owner.value|)] + Ellipsis
                   + owner.value[|owner.value| - Min(4, |owner.value|)..]
  {
    if !Truthy(owner) then ""
    else
      SliceHead(owner.value, 6);
      SliceTail(owner.value, 4);
      Slice(owner.value, 0, 6) + Ellipsis + SliceFrom(owner.value, -4)
  }

  /** A full-length address abbreviates to eleven characters. */
  lemma ShortAddrOfFullAddress(owner: string)
    requires |owner| >= 10
    ensures ShortAddr(Some(owner)) == owner[..6] + Ellipsis + owner[|owner| - 4..]
    ensures |ShortAddr(Some(owner))| == 11
  {
  }

  /** The success text embeds the first eight and the last six characters of
      the transaction hash. */
  function WithdrawSentText(hash: string): (r: string)
    ensures r == WithdrawSentPrefix + hash[..Min(8, |hash|)] + Ellipsis + hash[|hash| - Min(6, |hash|)..]
  {
    SliceHead(hash, 8);
    SliceTail(hash, 6);
    WithdrawSentPrefix + Slice(hash, 0, 8) + Ellipsis + SliceFrom(hash, -6)
  }

  /** The render gate: nothing while disconnected or once ownership is
      refuted, a skeleton while ownership is unknown, the controls only once
      ownership is confirmed. */
  function Render(acct: Wallet, s: AdminState): (r: Panel)
    ensures r == Controls <==> acct.isConnected && s.isOwner == Some(true)
    ensures r == Skeleton <==> acct.isConnected && s.isOwner == None
    ensures r == Hidden <==> !acct.isConnected || s.isOwner == Some(false)
  {
    if !acct.isConnected then Hidden
    else match s.isOwner
      case None => Skeleton
      case Some(owner) => if owner then Controls else Hidden
  }

  /** The load effect, run whenever the connection or the address changes,
      as written: it drops whatever load was outstanding and, when connected
      with an address, starts loading owner and balance together. It keeps
      the ownership flag of the previous address. The ticket of the new load
      is the epoch of the returned state. */
  function InitEffectAsWritten(s: AdminState, acct: Wallet): (r: (AdminState, bool))
    ensures r.0.epoch == s.epoch + 1
    ensures r.1 <==> acct.isConnected && Truthy(acct.address)
    ensures !r.1 ==> r.0 == s.(epoch := s.epoch + 1)
    ensures r.1 ==> r.0 == s.(epoch := s.epoch + 1, loading := true, error := None, success := None)
    ensures r.1 ==> !RefreshEnabled(r.0) && !WithdrawEnabled(r.0)
  {
    var dropped := s.(epoch := s.epoch + 1);
    if !acct.isConnected || !Truthy(acct.address) then (dropped, false)
    else (dropped.(loading := true, error := None, success := None), true)
  }

  /** The load effect with the ownership of the previous address forgotten
      as soon as the address changes, so that the gate waits for the check
      of the new one. */
  function InitEffect(s: AdminState, acct: Wallet): (r: (AdminState, bool))
    ensures r.0.epoch == s.epoch + 1
    ensures r.0.isOwner == None && r.0.ownerAddress == None
    ensures r.1 <==> acct.isConnected && Truthy(acct.address)
    ensures !r.1 ==> r.0 == s.(epoch := s.epoch + 1, isOwner := None, ownerAddress := None)
    ensures r.1 ==> r.0 == s.(epoch := s.epoch + 1, isOwner := None, ownerAddress := None,
                              loading := true, error := None, success := None)
    ensures r.1 ==> !RefreshEnabled(r.0) && !WithdrawEnabled(r.0)
  {
    var dropped := s.(epoch := s.epoch + 1, isOwner := None, ownerAddress := None);
    if !acct.isConnected || !Truthy(acct.address) then (dropped, false)
    else (dropped.(loading := true, error := None, success := None), true)
  }

  /** Owner and balance settle together, as one outcome (the first rejection
      of either read rejects both). A load from an older epoch is dropped. */
  function CompleteInit(s: AdminState, ticket: nat, address: string, outcome: Outcome<(string, nat)>): (r: AdminState)
    ensures ticket != s.epoch ==> r == s
    ensures ticket == s.epoch ==> !r.loading
    ensures ticket == s.epoch && outcome.Ok? ==>
              r.ownerAddress == Some(outcome.value.0) &&
              r.isOwner == Some(SameAddress(outcome.value.0, address)) &&
              r.balance == outcome.value.1
    ensures ticket == s.epoch && outcome.Ok? ==>
              r.(ownerAddress := s.ownerAddress, isOwner := s.isOwner, balance := s.balance, loading := s.loading) == s
    ensures ticket == s.epoch && outcome.Err? ==>
              r.error == Some(FailureText(outcome.failure, LoadFailedFallback))
    ensures ticket == s.epoch && outcome.Err? ==> r.(error := s.error, loading := s.loading) == s
  {
    if ticket != s.epoch then s
    else match outcome
      case Ok((owner, balance)) =>
        s.(ownerAddress := Some(owner), isOwner := Some(ToLower(owner) == ToLower(address)),
           balance := balance, loading := false)
      case Err(f) => s.(error := Some(FailureText(f, LoadFailedFallback)), loading := false)
  }

  predicate RefreshEnabled(s: AdminState)
  {
    !s.loading
  }

  predicate WithdrawEnabled(s: AdminState)
  {
    !s.withdrawing && !s.loading && s.balance > 0
  }

  /** While a refresh is loading, neither button can be pressed. */
  function BeginRefresh(s: AdminState): (r: AdminState)
    ensures !RefreshEnabled(r) && !WithdrawEnabled(r)
    ensures r.error == None
    ensures r.(loading := s.loading, error := s.error) == s
  {
    s.(loading := true, error := None)
  }

  /** The refresh settles: the balance read replaces the shown balance, and a
      failure is shown instead. Loading ends either way. */
  function CompleteRefresh(s: AdminState, read: Outcome<nat>): (r: AdminState)
    ensures !r.loading
    ensures read.Ok? ==> r.balance == read.value && r.error == s.error
    ensures read.Err? ==> r.balance == s.balance && r.error == Some(FailureText(read.failure, RefreshFailedFallback))
    ensures r.(balance := s.balance, error := s.error, loading := s.loading) == s
  {
    match read
    case Ok(balance) => s.(balance := balance, loading := false)
    case Err(f) => s.(error := Some(FailureText(f, RefreshFailedFallback)), loading := false)
  }

  /** The category of a withdraw failure's message, by ordered checks on its
      lower-cased form: cancellation first, then the owner-only revert. */
  function ClassifyWithdraw(msg: string): (c: WithdrawCategory)
    ensures c == Cancelled <==> exists i :: OccursAt(ToLower(msg), "user rejected", i)
    ensures c == NotOwner <==>
              !(exists i :: OccursAt(ToLower(msg), "user rejected", i)) &&
              ((exists i :: OccursAt(ToLower(msg), "unauthorized", i)) ||
               (exists i :: OccursAt(ToLower(msg), "onlyowner", i)))
  {
    ContainsIffOccurs(ToLower(msg), "user rejected");
    ContainsIffOccurs(ToLower(msg), "unauthorized");
    ContainsIffOccurs(ToLower(msg), "onlyowner");
    // The solver does not carry the lemmas' equivalences over to the
    // postconditions' literals without these restatements.
    assert Contains(ToLower(msg), "user rejected") <==> exists i :: OccursAt(ToLower(msg), "user rejected", i);
    assert Contains(ToLower(msg), "unauthorized") <==> exists i :: OccursAt(ToLower(msg), "unauthorized", i);
    assert Contains(ToLower(msg), "onlyowner") <==> exists i :: OccursAt(ToLower(msg), "onlyowner", i);
    if Contains(ToLower(msg), "user rejected") then Cancelled
    else if Contains(ToLower(msg), "unauthorized") || Contains(ToLower(msg), "onlyowner") then NotOwner
    else Verbatim
  }

  /** The classification ignores letter case. */
  lemma {:induction false} ClassifyIgnoresCase(msg: string)
    ensures ClassifyWithdraw(ToLower(msg)) == ClassifyWithdraw(msg)
  {
    ToLowerIdempotent(msg);
  }

  /** The error shown for a failed withdraw (or for a failed balance re-read
      after it): the error's own text, else the fallback, mapped through its
      category. It is never empty. */
  function WithdrawErrorMessage(f: Failure): (r: string)
    ensures r != ""
    ensures ClassifyWithdraw(FailureText(f, WithdrawFailedFallback)) == Cancelled ==> r == WithdrawCancelledMessage
    ensures ClassifyWithdraw(FailureText(f, WithdrawFailedFallback)) == NotOwner ==> r == NotOwnerMessage
    ensures ClassifyWithdraw(FailureText(f, WithdrawFailedFallback)) == Verbatim ==> r == FailureText(f, WithdrawFailedFallback)
  {
    var msg := FailureText(f, WithdrawFailedFallback);
    match ClassifyWithdraw(msg)
    case Cancelled => WithdrawCancelledMessage
    case NotOwner => NotOwnerMessage
    case Verbatim => msg
  }

  /** While a withdraw is in flight a second one cannot be started; the
      refresh button is unaffected. */
  function BeginWithdraw(s: AdminState): (r: AdminState)
    ensures !WithdrawEnabled(r)
    ensures RefreshEnabled(r) == RefreshEnabled(s)
    ensures r.error == None && r.success == None
    ensures r.(withdrawing := s.withdrawing, error := s.error, success := s.success) == s
  {
    s.(withdrawing := true, error := None, success := None)
  }

  /** The withdraw settles. On success the success text is set and the
      balance is read again from the contract (the boolean says the re-read
      was made); a failure of either call is classified. `withdrawing` ends
      false in every case. */
  function CompleteWithdraw(s: AdminState, withdraw: Outcome<string>, reread: Outcome<nat>): (r: (AdminState, bool))
    ensures !r.0.withdrawing
    ensures r.1 <==> withdraw.Ok?
    ensures withdraw.Ok? ==> r.0.success == Some(WithdrawSentText(withdraw.value))
    ensures withdraw.Ok? && reread.Ok? ==> r.0.balance == reread.value && r.0.error == s.error
    ensures withdraw.Ok? && reread.Err? ==>
              r.0.balance == s.balance && r.0.error == Some(WithdrawErrorMessage(reread.failure))
    ensures withdraw.Err? ==>
              r.0 == s.(withdrawing := false, error := Some(WithdrawErrorMessage(withdraw.failure)))
    ensures withdraw.Ok? ==>
              r.0.(withdrawing := s.withdrawing, success := s.success, balance := s.balance, error := s.error) == s
  {
    match withdraw
    case Err(f) => (s.(error := Some(WithdrawErrorMessage(f)), withdrawing := false), false)
    case Ok(hash) =>
      var sent := s.(success := Some(WithdrawSentText(hash)));
      match reread
      case Ok(balance) => (sent.(balance := balance, withdrawing := false), true)
      case Err(f) => (sent.(error := Some(WithdrawErrorMessage(f)), withdrawing := false), true)
  }

  /** A successful withdraw leaves the balance the contract reports, whatever
      the panel showed before: no local decrement. */
  lemma WithdrawBalanceComesFromContract(s1: AdminState, s2: AdminState, hash: string, balance: nat)
    ensures CompleteWithdraw(s1, Ok(hash), Ok(balance)).0.balance
         == CompleteWithdraw(s2, Ok(hash), Ok(balance)).0.balance
  {
  }

  /** Scenario: the owner connects (with any letter case), owner and balance
      load, and the panel shows the controls; withdraw is enabled exactly
      when the balance is positive. */
  lemma OwnerSeesEnabledWithdraw(address: string, owner: string, balance: nat)
    requires address != "" && SameAddress(owner, address)
    ensures var acct := Wallet(true, Some(address));
            var (loading, started) := InitEffectAsWritten(Init(), acct);
            var loaded := CompleteInit(loading, loading.epoch, address, Ok((owner, balance)));
            started && Render(acct, loading) == Skeleton && Render(acct, loaded) == Controls &&
            (WithdrawEnabled(loaded) <==> balance > 0) && RefreshEnabled(loaded)
  {
  }

  /** Scenario: any other address connects, and the panel renders nothing. */
  lemma NonOwnerSeesNothing(address: string, owner: string, balance: nat)
    requires address != "" && !SameAddress(owner, address)
    ensures var acct := Wallet(true, Some(address));
            var (loading, _) := InitEffectAsWritten(Init(), acct);
            Render(acct, CompleteInit(loading, loading.epoch, address, Ok((owner, balance)))) == Hidden
  {
  }

  /** As written: the owner's session loads, the wallet switches to another
      address, and the reload fails. The other address is shown the controls
      with the previous balance and an enabled withdraw button. */
  lemma AsWrittenSwitchKeepsControls()
    ensures var owner := Wallet(true, Some("0xAA"));
            var other := Wallet(true, Some("0xBB"));
            var (l1, _) := InitEffectAsWritten(Init(), owner);
            var s1 := CompleteInit(l1, l1.epoch, "0xAA", Ok(("0xAA", 5)));
            var (l2, started) := InitEffectAsWritten(s1, other);
            var s2 := CompleteInit(l2, l2.epoch, "0xBB", Err(Failure(None, None)));
            started && !SameAddress("0xAA", "0xBB") &&
            Render(other, l2) == Controls && Render(other, s2) == Controls && WithdrawEnabled(s2)
  {
  }

  /** With the corrected effect, whatever the panel showed before: while the
      load for a new address runs the panel shows the skeleton, and once it
      settles the controls appear exactly when the check of that address
      succeeded and named it the owner. */
  lemma CorrectedGateWaitsForOwnerCheck(s: AdminState, acct: Wallet, outcome: Outcome<(string, nat)>)
    requires acct.isConnected && Truthy(acct.address)
    ensures var (loading, started) := InitEffect(s, acct);
            var settled := CompleteInit(loading, loading.epoch, acct.address.value, outcome);
            started && Render(acct, loading) == Skeleton &&
            (Render(acct, settled) == Controls <==> outcome.Ok? && SameAddress(outcome.value.0, acct.address.value))
  {
  }
}

=== FILE: jsstring.dfy ===
/** The JavaScript string operations the application relies on, with their
    JavaScript semantics: `toLowerCase` (restricted to ASCII letters),
    `includes` and `slice` (negative indices count from the end, indices are
    clamped to the string). */
module JsString {

  function Min(a: int, b: int): int
  {
    if a <= b then a else b
  }

  /** ASCII lower-casing of one character; every other character is kept. */
  function LowerChar(c: char): char
  {
    if 'A' <= c <= 'Z' then (c as int + 32) as char else c
  }

  /** `s.toLowerCase()` on ASCII letters. */
  function ToLower(s: string): (r: string)
    ensures |r| == |s|
    ensures forall i :: 0 <= i < |s| ==> r[i] == LowerChar(s[i])
  {
    if s == [] then [] else [LowerChar(s[0])] + ToLower(s[1..])
  }

  /** Lower-casing twice is lower-casing once. */
  lemma {:induction false} ToLowerIdempotent(s: string)
    ensures ToLower(ToLower(s)) == ToLower(s)
  {
    if s != [] {
      ToLowerIdempotent(s[1..]);
      assert ToLower(s)[1..] == ToLower(s[1..]);
    }
  }

  /** `t` occurs in `s` starting at index `i`: the reference meaning of
      `s.includes(t)`. */
  ghost predicate OccursAt(s: string, t: string, i: int)
  {
    0 <= i && i + |t| <= |s| && s[i..i + |t|] == t
  }

  /** `s.includes(t)`, computed by scanning from the left. */
  predicate Contains(s: string, t: string)
    decreases |s|
  {
    |t| <= |s| && (s[..|t|] == t || Contains(s[1..], t))
  }

  /** The scan finds `t` exactly when `t` occurs somewhere in `s`. */
  lemma {:induction false} ContainsIffOccurs(s: string, t: string)
    ensures Contains(s, t) <==> exists i :: OccursAt(s, t, i)
    decreases |s|
  {
    if |t| <= |s| {
      if s[..|t|] == t {
        assert OccursAt(s, t, 0);
      } else {
        ContainsIffOccurs(s[1..], t);
        if Contains(s[1..], t) {
          var i :| OccursAt(s[1..], t, i);
          assert s[1..][i..i + |t|] == s[i + 1..i + 1 + |t|];
          assert OccursAt(s, t, i + 1);
        }
        if exists i :: OccursAt(s, t, i) {
          var i :| OccursAt(s, t, i);
          assert i != 0;
          assert s[1..][i - 1..i - 1 + |t|] == s[i..i + |t|];
          assert OccursAt(s[1..], t, i - 1);
        }
      }
    }
  }

  /** An occurrence of an occurrence is an occurrence. */
  lemma ContainsTransitive(s: string, t: string, u: string)
    requires Contains(s, t) && Contains(t, u)
    ensures Contains(s, u)
  {
    ContainsIffOccurs(s, t);
    ContainsIffOccurs(t, u);
    var i :| OccursAt(s, t, i);
    var j :| OccursAt(t, u, j);
    forall k | 0 <= k < |u|
      ensures s[i + j + k] == u[k]
    {
      assert t[j + k] == u[k];
      assert s[i + (j + k)] == t[j + k];
    }
    assert s[i + j..i + j + |u|] == u;
    assert OccursAt(s, u, i + j);
    ContainsIffOccurs(s, u);
  }

  /** A slice bound as `String.prototype.slice` resolves it: a negative index
      counts back from the end, and the result is clamped to `[0, len]`. */
  function ResolveIndex(k: int, len: nat): (r: nat)
    ensures r <= len
    ensures 0 <= k ==> r == Min(k, len)
    ensures k < 0 ==> r == (if len + k < 0 then 0 else len + k)
  {
    if k < 0 then (if len + k < 0 then 0 else len + k)
    else if k > len then len
    else k
  }

  /** `s.slice(start, end)`: empty when the resolved bounds cross. */
  function Slice(s: string, start: int, end: int): (r: string)
    ensures |r| <= |s|
    ensures 0 <= start <= end ==> r == s[Min(start, |s|)..Min(end, |s|)]
    ensures start < 0 && -start <= |s| && end == |s| ==> r == s[|s| + start..]
  {
    var from := ResolveIndex(start, |s|);
    var to := ResolveIndex(end, |s|);
    if from < to then s[from..to] else ""
  }

  /** `s.slice(start)`: the end bound defaults to the length. */
  function SliceFrom(s: string, start: int): (r: string)
    ensures |r| <= |s|
  {
    Slice(s, start, |s|)
  }

  /** `s.slice(0, n)` is the first `n` characters, or all of a shorter `s`. */
  lemma SliceHead(s: string, n: nat)
    ensures Slice(s, 0, n) == s[..Min(n, |s|)]
  {
  }

  /** `s.slice(-n)` is the last `n` characters, or all of a shorter `s`. */
  lemma SliceTail(s: string, n: nat)
    requires 0 < n
    ensures SliceFrom(s, -(n as int)) == s[|s| - Min(n, |s|)..]
  {
  }
}

=== FILE: minting.dfy ===
/** The mint half of the mutation component: the single-flight guard, the
    four-step pipeline (materialise the image, upload it, upload the metadata,
    mint), the metadata record, the mapping from a failure to the alert text,
    and the success modal with its share action.

    Each external step (image fetch/decoding, content storage, the mint
    transaction) is an oracle outcome; the pipeline records which steps it
    attempted, with their arguments, so that abort-on-failure and the data
    passed between steps can be stated. Haptic feedback is best-effort and
    its failures are swallowed, so it is not modelled. */
module Minting {
  import opened Outcomes
  import opened JsString
  import opened Mutation

  const NamePrefix: string := "Cutified "
  const DescriptionPrefix: string := "Adorable Halloween version of "
  const HalloweenTrait: Attribute := Attribute("Halloween Style", "Cutified")
  const MintCancelledMessage: string := "Transaction cancelled"
  const MintFailedMessage: string := "Mint failed"
  const MiniAppUrl: string := "https://halloween-ten-blond.vercel.app"
  const ShareTextStart: string := "I just cutified my "
  /** The characters after "for Halloween! " are copied as they stand in the
      component's source text: U+F8FF, ü, é, É, ‚, ú, ®, the Mac Roman reading
      of the UTF-8 bytes of the pumpkin and sparkles emoji. */
  const ShareTextEnd: string :=
    " for Halloween! \U{F8FF}\U{00FC}\U{00E9}\U{00C9}\U{201A}\U{00FA}\U{00AE}\n\nCutify your Warplet now on Halloween Warplets!"

  datatype Origin = Origin(contract: string, tokenId: string)

  /** The metadata record uploaded before minting. */
  datatype Metadata = Metadata(
    name: string,
    description: string,
    image: string,
    attributes: seq<Attribute>,
    origin: Origin)

  /** The arguments of the contract's mint call. The token id is passed on as
      the NFT's identifier; its conversion to a big integer is not modelled. */
  datatype MintRequest = MintRequest(originContract: string, originTokenId: string, metadataUri: string)

  /** What the mint call returns: the transaction hash and, when the event
      log yielded one, the new token id. */
  datatype MintReceipt = MintReceipt(hash: string, tokenId: Option<nat>)

  datatype Blob = Blob(bytes: seq<bv8>)

  /** What each external step of one pipeline run answers. */
  datatype MintOracle = MintOracle(
    blob: Outcome<Blob>,
    imageUpload: Outcome<string>,
    metadataUpload: Outcome<string>,
    mint: Outcome<MintReceipt>)

  datatype Step =
    | FetchImage(url: string)
    | UploadImage(blob: Blob)
    | UploadMetadata(metadata: Metadata)
    | SubmitMint(request: MintRequest)

  datatype PipelineRun = PipelineRun(steps: seq<Step>, outcome: Outcome<MintSuccessData>)

  datatype ShareRequest = ShareRequest(text: string, embeds: seq<string>)

  /** The condition under which the mint handler proceeds. */
  predicate MintGuard(s: MutationState)
  {
    s.result.Some? && s.status == Ready && !s.isMinting
  }

  /** The mint handler up to the start of the pipeline, as written: the guard's
      early `return` sits inside the `try` whose `finally` clears `isMinting`,
      so a rejected call also clears the flag. The boolean says whether a
      pipeline run was started. */
  function BeginMintAsWritten(s: MutationState): (r: (MutationState, bool))
    ensures r.1 <==> MintGuard(s)
    ensures r.1 ==> r.0 == s.(isMinting := true)
    ensures !r.1 ==> r.0 == s.(isMinting := false)
  {
    if !MintGuard(s) then (s.(isMinting := false), false)
    else (s.(isMinting := true), true)
  }

  /** The mint handler up to the start of the pipeline, with the guard
      leaving the state alone when it rejects. */
  function BeginMint(s: MutationState): (r: (MutationState, bool))
    ensures r.1 <==> MintGuard(s)
    ensures r.1 ==> r.0 == s.(isMinting := true)
    ensures !r.1 ==> r.0 == s
    ensures Wf(s) ==> Wf(r.0)
  {
    if !MintGuard(s) then (s, false)
    else (s.(isMinting := true), true)
  }

  /** Removes `prefix` from the front of `s`, when it is there. */
  function StripPrefix(prefix: string, s: string): (r: Option<string>)
    ensures r.Some? ==> prefix + r.value == s
  {
    if |prefix| <= |s| && s[..|prefix|] == prefix then Some(s[|prefix|..]) else None
  }

  /** The metadata record for minting a cutified copy of `nft` whose image was
      uploaded as `imageUri`. */
  function BuildMetadata(nft: NftData, imageUri: string): (m: Metadata)
    ensures m.image == imageUri
    ensures m.origin == Origin(nft.contractAddress, nft.tokenId)
    ensures |m.attributes| == |nft.attributes| + 1
    ensures m.attributes[..|nft.attributes|] == nft.attributes
    ensures m.attributes[|nft.attributes|] == HalloweenTrait
  {
    Metadata(
      NamePrefix + nft.name,
      DescriptionPrefix + nft.name,
      imageUri,
      nft.attributes + [HalloweenTrait],
      Origin(nft.contractAddress, nft.tokenId))
  }

  /** The source name can be read back from both the name and the description
      of the metadata. */
  lemma MetadataNamesSource(nft: NftData, imageUri: string)
    ensures StripPrefix(NamePrefix, BuildMetadata(nft, imageUri).name) == Some(nft.name)
    ensures StripPrefix(DescriptionPrefix, BuildMetadata(nft, imageUri).description) == Some(nft.name)
  {
    var m := BuildMetadata(nft, imageUri);
    assert (NamePrefix + nft.name)[..|NamePrefix|] == NamePrefix;
    assert (NamePrefix + nft.name)[|NamePrefix|..] == nft.name;
    assert (DescriptionPrefix + nft.name)[..|DescriptionPrefix|] == DescriptionPrefix;
    assert (DescriptionPrefix + nft.name)[|DescriptionPrefix|..] == nft.name;
  }

  /** One run of the pipeline for `result` of `nft`. Every step runs only if
      the one before it succeeded; the first failure ends the run with that
      failure. */
  function RunPipeline(nft: NftData, result: MutationResult, oracle: MintOracle): (run: PipelineRun)
    ensures 1 <= |run.steps| <= 4
    ensures run.steps[0] == FetchImage(result.mutatedImageUrl)
    ensures run.outcome.Ok? <==>
              oracle.blob.Ok? && oracle.imageUpload.Ok? && oracle.metadataUpload.Ok? && oracle.mint.Ok?
    ensures oracle.blob.Err? ==> |run.steps| == 1 && run.outcome == Err(oracle.blob.failure)
    ensures oracle.blob.Ok? && oracle.imageUpload.Err? ==>
              |run.steps| == 2 && run.outcome == Err(oracle.imageUpload.failure)
    ensures oracle.blob.Ok? && oracle.imageUpload.Ok? && oracle.metadataUpload.Err? ==>
              |run.steps| == 3 && run.outcome == Err(oracle.metadataUpload.failure)
    ensures oracle.blob.Ok? && oracle.imageUpload.Ok? && oracle.metadataUpload.Ok? ==>
              |run.steps| == 4 &&
              run.steps[3] == SubmitMint(MintRequest(nft.contractAddress, nft.tokenId, oracle.metadataUpload.value))
    ensures oracle.blob.Ok? && oracle.imageUpload.Ok? && oracle.metadataUpload.Ok? && oracle.mint.Err? ==>
              run.outcome == Err(oracle.mint.failure)
    ensures forall k :: 0 <= k < |run.steps| ==>
              (run.steps[k].FetchImage? <==> k == 0) && (run.steps[k].UploadImage? <==> k == 1) &&
              (run.steps[k].UploadMetadata? <==> k == 2) && (run.steps[k].SubmitMint? <==> k == 3)
    ensures forall k :: 0 <= k < |run.steps| && run.steps[k].UploadImage? ==>
              oracle.blob.Ok? && run.steps[k] == UploadImage(oracle.blob.value)
    ensures forall k :: 0 <= k < |run.steps| && run.steps[k].UploadMetadata? ==>
              oracle.imageUpload.Ok? && run.steps[k] == UploadMetadata(BuildMetadata(nft, oracle.imageUpload.value))
    ensures forall k :: 0 <= k < |run.steps| && run.steps[k].SubmitMint? ==>
              oracle.metadataUpload.Ok? &&
              run.steps[k] == SubmitMint(MintRequest(nft.contractAddress, nft.tokenId, oracle.metadataUpload.value))
    ensures run.outcome.Ok? ==>
              run.outcome.value == MintSuccessData(oracle.mint.value.hash, oracle.mint.value.tokenId,
                                                   oracle.imageUpload.value, NamePrefix + nft.name)
  {
    var fetch := FetchImage(result.mutatedImageUrl);
    match oracle.blob
    case Err(f) => PipelineRun([fetch], Err(f))
    case Ok(blob) =>
      match oracle.imageUpload
      case Err(f) => PipelineRun([fetch, UploadImage(blob)], Err(f))
      case Ok(imageUri) =>
        var metadata := BuildMetadata(nft, imageUri);
        match oracle.metadataUpload
        case Err(f) => PipelineRun([fetch, UploadImage(blob), UploadMetadata(metadata)], Err(f))
        case Ok(metadataUri) =>
          var request := MintRequest(nft.contractAddress, nft.tokenId, metadataUri);
          var steps := [fetch, UploadImage(blob), UploadMetadata(metadata), SubmitMint(request)];
          match oracle.mint
          case Err(f) => PipelineRun(steps, Err(f))
          case Ok(receipt) =>
            PipelineRun(steps, Ok(MintSuccessData(receipt.hash, receipt.tokenId, imageUri, metadata.name)))
  }

  /** The number of steps a run attempts: one more than the number of
      leading steps that succeeded, and at most four. */
  function StepsAttempted(oracle: MintOracle): (n: nat)
  {
    if oracle.blob.Err? then 1
    else if oracle.imageUpload.Err? then 2
    else if oracle.metadataUpload.Err? then 3
    else 4
  }

  /** The four-step plan with the arguments each step would receive; a step
      whose input never materialised has no entry, so the plan is cut after
      the first failed step. */
  function Plan(nft: NftData, result: MutationResult, oracle: MintOracle): (plan: seq<Step>)
    ensures |plan| == StepsAttempted(oracle)
  {
    var fetch := [FetchImage(result.mutatedImageUrl)];
    if oracle.blob.Err? then fetch
    else
      var upload := fetch + [UploadImage(oracle.blob.value)];
      if oracle.imageUpload.Err? then upload
      else
        var meta := upload + [UploadMetadata(BuildMetadata(nft, oracle.imageUpload.value))];
        if oracle.metadataUpload.Err? then meta
        else meta + [SubmitMint(MintRequest(nft.contractAddress, nft.tokenId, oracle.metadataUpload.value))]
  }

  /** The run attempts exactly the plan's steps, in order, and fails exactly
      when one of the attempted steps failed, with the failure of the last
      step attempted. */
  lemma PipelineFollowsPlan(nft: NftData, result: MutationResult, oracle: MintOracle)
    ensures RunPipeline(nft, result, oracle).steps == Plan(nft, result, oracle)
    ensures StepsAttempted(oracle) < 4 ==> RunPipeline(nft, result, oracle).outcome.Err?
  {
  }

  /** A failed image upload ends the run before any metadata is uploaded or
      any mint is submitted. */
  lemma UploadFailureStopsPipeline(nft: NftData, result: MutationResult, oracle: MintOracle)
    requires oracle.blob.Ok? && oracle.imageUpload.Err?
    ensures var run := RunPipeline(nft, result, oracle);
            run.outcome.Err? &&
            forall k :: 0 <= k < |run.steps| ==> !run.steps[k].UploadMetadata? && !run.steps[k].SubmitMint?
  {
  }

  /** The handler's first test ("User rejected") is subsumed by its second
      ("rejected"). */
  lemma UserRejectedMentionsRejected(m: string)
    requires Contains(m, "User rejected")
    ensures Contains(m, "rejected")
  {
    assert "User rejected"[5..13] == "rejected";
    assert OccursAt("User rejected", "rejected", 5);
    ContainsIffOccurs("User rejected", "rejected");
    ContainsTransitive(m, "User rejected", "rejected");
  }

  /** The alert text for a failed mint: a message mentioning "rejected"
      (which covers "User rejected") means the user cancelled; any other
      non-empty message is shown as it is; otherwise a generic text. */
  function MintErrorMessage(f: Failure): (r: string)
    ensures r != ""
    ensures f.message.Some? && (exists i :: OccursAt(f.message.value, "rejected", i)) ==>
              r == MintCancelledMessage
    ensures Truthy(f.message) && !(exists i :: OccursAt(f.message.value, "rejected", i)) ==>
              r == f.message.value
    ensures !Truthy(f.message) ==> r == MintFailedMessage
  {
    if f.message.Some? then
      var m := f.message.value;
      ContainsIffOccurs(m, "rejected");
      // The first of the handler's two tests is subsumed by the second.
      assert Contains(m, "User rejected") ==> Contains(m, "rejected") by {
        if Contains(m, "User rejected") { UserRejectedMentionsRejected(m); }
      }
      if Contains(m, "rejected") then MintCancelledMessage
      else if m != "" then m
      else MintFailedMessage
    else MintFailedMessage
  }

  /** The pipeline settled: the in-flight flag is released whatever happened.
      Success opens the modal with the mint's data; failure yields the alert
      text to show. */
  function CompleteMint(s: MutationState, outcome: Outcome<MintSuccessData>): (r: (MutationState, Option<string>))
    ensures !r.0.isMinting
    ensures r.0.status == s.status && r.0.result == s.result && r.0.epoch == s.epoch
    ensures outcome.Ok? ==> r.0.mintSuccessData == Some(outcome.value) && r.0.showSuccessModal && r.1 == None
    ensures outcome.Ok? ==>
              r.0.(mintSuccessData := s.mintSuccessData, showSuccessModal := s.showSuccessModal, isMinting := s.isMinting) == s
    ensures outcome.Err? ==> r.1 == Some(MintErrorMessage(outcome.failure))
    ensures outcome.Err? ==> r.0 == s.(isMinting := false)
    ensures Wf(s) ==> Wf(r.0)
  {
    match outcome
    case Ok(data) => (s.(mintSuccessData := Some(data), showSuccessModal := true, isMinting := false), None)
    case Err(f) => (s.(isMinting := false), Some(MintErrorMessage(f)))
  }

  /** Closing the success modal clears both the flag and the data. */
  function CloseModal(s: MutationState): (r: MutationState)
    ensures !r.showSuccessModal && r.mintSuccessData == None
    ensures r.(showSuccessModal := s.showSuccessModal, mintSuccessData := s.mintSuccessData) == s
    ensures Wf(s) ==> Wf(r)
  {
    s.(showSuccessModal := false, mintSuccessData := None)
  }

  /** The post the share action composes: nothing without success data;
      otherwise a text naming the minted asset, embedding the uploaded image
      and then the application link. */
  function Share(s: MutationState): (r: Option<ShareRequest>)
    ensures r.Some? <==> s.mintSuccessData.Some?
    ensures r.Some? ==> r.value.embeds == [s.mintSuccessData.value.imageUri, MiniAppUrl]
    ensures r.Some? ==> OccursAt(r.value.text, s.mintSuccessData.value.name, |ShareTextStart|)
  {
    match s.mintSuccessData
    case None => None
    case Some(data) =>
      var text := ShareTextStart + data.name + ShareTextEnd;
      assert text[|ShareTextStart|..|ShareTextStart| + |data.name|] == data.name;
      Some(ShareRequest(text, [data.imageUri, MiniAppUrl]))
  }

  /** The events one mounted instance of the mutation component reacts to,
      from its mount to its unmount. An unmount destroys the instance's state,
      so it ends a replay rather than being a step of it; a remount starts a
      new replay from `Init()`. A remix completion carries the previous result
      its action held. */
  datatype Event =
    | NftChanged(nft: NftData)
    | GenerationSettled(ticket: nat, generated: Outcome<GeneratedImage>)
    | RetryClicked(retryNft: NftData)
    | RetrySettled(retried: Outcome<GeneratedImage>)
    | RemixClicked(remixNft: NftData)
    | RemixSettled(previous: Option<MutationResult>, remixed: Outcome<GeneratedImage>)
    | MintClicked
    | MintSettled(minted: Outcome<MintSuccessData>)
    | ModalClosed

  /** Applies one event; `inFlight` counts the mint pipelines started and not
      yet settled. A settlement with nothing in flight is ignored. A mint
      click is a click on the component's own button: it reaches the handler,
      as written, only while the button is enabled. */
  function Apply(s: MutationState, inFlight: nat, e: Event): (r: (MutationState, nat))
  {
    match e
    case NftChanged(nft) => (GenerationEffect(s, nft).0, inFlight)
    case GenerationSettled(ticket, o) => (CompleteGeneration(s, ticket, o), inFlight)
    case RetryClicked(nft) => (BeginRetry(s, nft).0, inFlight)
    case RetrySettled(o) => (CompleteRetry(s, o), inFlight)
    case RemixClicked(nft) => (BeginRemix(s, nft).0, inFlight)
    case RemixSettled(previous, o) => (CompleteRemix(s, previous, o), inFlight)
    case MintClicked =>
      if !MintButtonEnabled(s) then (s, inFlight)
      else
        var (s', started) := BeginMintAsWritten(s);
        (s', if started then inFlight + 1 else inFlight)
    case MintSettled(o) => if inFlight == 0 then (s, 0) else (CompleteMint(s, o).0, inFlight - 1)
    case ModalClosed => (CloseModal(s), inFlight)
  }

  function Replay(s: MutationState, inFlight: nat, events: seq<Event>): (r: (MutationState, nat))
    decreases |events|
  {
    if events == [] then (s, inFlight)
    else
      var (s', n') := Apply(s, inFlight, events[0]);
      Replay(s', n', events[1..])
  }

  /** The state invariant of the whole component together with the
      single-flight discipline: `isMinting` is set exactly while one pipeline
      is in flight. */
  ghost predicate Consistent(s: MutationState, inFlight: nat)
  {
    Wf(s) && inFlight == (if s.isMinting then 1 else 0)
  }

  /** On every click the enabled button lets through, the handler as written
      and the corrected guard do the same thing. */
  lemma EnabledClickAgrees(s: MutationState)
    requires Wf(s) && MintButtonEnabled(s)
    ensures BeginMintAsWritten(s) == BeginMint(s)
    ensures BeginMint(s).1
  {
  }

  /** A click on the disabled button changes nothing, which is also what the
      corrected guard does with it. */
  lemma DisabledClickIsIgnoredByGuard(s: MutationState)
    requires Wf(s) && !MintButtonEnabled(s)
    ensures BeginMint(s) == (s, false)
  {
  }

  lemma ApplyKeepsConsistent(s: MutationState, inFlight: nat, e: Event)
    requires Consistent(s, inFlight)
    ensures Consistent(Apply(s, inFlight, e).0, Apply(s, inFlight, e).1)
  {
  }

  /** From the initial state, on every sequence of events of one mounted
      instance: the invariant
      holds, at most one mint pipeline is ever in flight, and the mint
      button is enabled exactly when the handler would proceed. */
  lemma {:induction false} ReplayKeepsSingleFlight(s: MutationState, inFlight: nat, events: seq<Event>)
    requires Consistent(s, inFlight)
    ensures Consistent(Replay(s, inFlight, events).0, Replay(s, inFlight, events).1)
    ensures Replay(s, inFlight, events).1 <= 1
    ensures MintButtonEnabled(Replay(s, inFlight, events).0) <==> MintGuard(Replay(s, inFlight, events).0)
    decreases |events|
  {
    if events != [] {
      ApplyKeepsConsistent(s, inFlight, events[0]);
      var (s', n') := Apply(s, inFlight, events[0]);
      ReplayKeepsSingleFlight(s', n', events[1..]);
    }
  }

  /** Across a remount the guard does not hold: whatever the unmounted
      instance was doing (a pipeline of its may still be awaiting the mint),
      the new instance starts from the initial state, and once its generation
      succeeds its enabled button starts a pipeline of its own. */
  lemma RemountedInstanceCanMint(nft: NftData, img: GeneratedImage)
    requires nft.image != ""
    ensures var (generating, _) := GenerationEffect(Init(), nft);
            var ready := CompleteGeneration(generating, generating.epoch, Ok(img));
            MintButtonEnabled(ready) && BeginMintAsWritten(ready).1 &&
            Replay(Init(), 0, [NftChanged(nft), GenerationSettled(1, Ok(img)), MintClicked]).1 == 1
  {
    var events := [NftChanged(nft), GenerationSettled(1, Ok(img)), MintClicked];
    var (s1, n1) := Apply(Init(), 0, events[0]);
    var (s2, n2) := Apply(s1, n1, events[1]);
    var (s3, n3) := Apply(s2, n2, events[2]);
    assert events[1..] == [events[1], events[2]];
    assert events[1..][1..] == [events[2]];
    assert events[1..][1..][1..] == [];
    assert Replay(s3, n3, []) == (s3, n3);
    assert Replay(s2, n2, events[1..][1..]) == (s3, n3);
    assert Replay(s1, n1, events[1..]) == (s3, n3);
    assert Replay(Init(), 0, events) == (s3, n3);
    assert n3 == 1;
  }

  lemma InitIsConsistent()
    ensures Consistent(Init(), 0)
  {
  }

  /** As written, a call rejected because a mint is in flight clears the
      flag, after which a further call starts a second pipeline although the
      first never settled. */
  lemma AsWrittenStartsSecondPipeline()
    ensures var s0 := MutationState(Ready, Some(MutationResult("B.png", GeminiService)), None, false, None, false, 1);
            var (s1, first) := BeginMintAsWritten(s0);
            var (s2, rejected) := BeginMintAsWritten(s1);
            var (s3, second) := BeginMintAsWritten(s2);
            first && s1.isMinting && !rejected && !s2.isMinting && second
  {
  }

  /** With the corrected guard, no number of calls starts a second pipeline
      while one is in flight. */
  lemma CorrectedGuardHoldsWhileMinting(s: MutationState)
    requires s.isMinting
    ensures BeginMint(s) == (s, false)
    ensures BeginMint(BeginMint(s).0) == (s, false)
  {
  }
}

=== FILE: mutation.dfy ===
/** The image half of the mutation component: the state it keeps for the
    selected NFT, the generation effect that runs when the NFT changes, the
    retry and remix ("try another costume") actions, and the conditions under
    which the image and the buttons are shown.

    The component's closure flag `cancelled` is modelled by an epoch counter:
    every run of the generation effect (and its cleanup) advances the epoch, a
    request remembers the epoch it was issued in as its ticket, and a
    completion whose ticket is no longer current changes nothing. */
module Mutation {
  import opened Outcomes

  datatype Status = Pending | Generating | Ready | Error

  datatype Attribute = Attribute(traitType: string, value: string)

  /** The source NFT handed to the component. */
  datatype NftData = NftData(
    tokenId: string,
    contractAddress: string,
    name: string,
    description: string,
    image: string,
    attributes: seq<Attribute>)

  /** One generated image, as the component stores it. */
  datatype MutationResult = MutationResult(mutatedImageUrl: string, imageGenerationService: string)

  /** What the image provider answered: the image reference and its service tag. */
  datatype GeneratedImage = GeneratedImage(imageUrl: string, service: string)

  /** The fixed divergence prompt the remix sends as its custom prompt
      (different palette, costume, accessories, lighting and background). */
  datatype CustomPrompt = AlternativeCostume

  /** The arguments of one call to the image provider. The transform strength
      0.75 is kept as a whole percentage. */
  datatype GenerationRequest = GenerationRequest(
    prompt: string,
    imageUrl: string,
    strengthPercent: nat,
    negativePrompt: string,
    customPrompt: Option<CustomPrompt>)

  /** What a successful mint reports back. */
  datatype MintSuccessData = MintSuccessData(hash: string, tokenId: Option<nat>, imageUri: string, name: string)

  datatype MutationState = MutationState(
    status: Status,
    result: Option<MutationResult>,
    error: Option<string>,
    showSuccessModal: bool,
    mintSuccessData: Option<MintSuccessData>,
    isMinting: bool,
    epoch: nat)

  const InitialPrompt: string := "cute halloween warplet"
  const RetryPrompt: string := "cyberpunk mutant"
  const RemixPrompt: string := "cute halloween warplet remix"
  const StrengthPercent: nat := 75
  const GeminiService: string := "gemini"
  const GenerationFailedMessage: string := "Unable to create cutified version. Please try again later."
  const RemixFailedMessage: string := "Unable to create new cutified version. Please try again later."

  function Init(): MutationState
  {
    MutationState(Pending, None, None, false, None, false, 0)
  }

  /** The invariant every reachable state keeps: `ready` always has a result
      to show, and the success modal is open exactly when there is success
      data to show in it. */
  ghost predicate Wf(s: MutationState)
  {
    && (s.status == Ready ==> s.result.Some?)
    && (s.showSuccessModal <==> s.mintSuccessData.Some?)
  }

  function ResultOf(img: GeneratedImage): MutationResult
  {
    MutationResult(img.imageUrl, img.service)
  }

  /** The generation effect, run on mount and whenever the NFT's token id
      changes: it cancels whatever generation was outstanding and, when the NFT
      has an image, starts a new one from that image with the initial prompt.
      The ticket of the new request is the epoch of the returned state. */
  function GenerationEffect(s: MutationState, nft: NftData): (r: (MutationState, Option<GenerationRequest>))
    ensures r.0.epoch == s.epoch + 1
    ensures r.1.Some? <==> nft.image != ""
    ensures r.1.Some? ==> r.1.value == GenerationRequest(InitialPrompt, nft.image, StrengthPercent, "", None)
    ensures nft.image != "" ==> r.0.status == Generating && r.0.error == None
    ensures nft.image == "" ==> r.0.status == s.status && r.0.error == s.error
    ensures r.0.(epoch := s.epoch, status := s.status, error := s.error) == s
    ensures Wf(s) ==> Wf(r.0)
  {
    var cancelled := s.(epoch := s.epoch + 1);
    if nft.image == "" then (cancelled, None)
    else
      (cancelled.(status := Generating, error := None),
       Some(GenerationRequest(InitialPrompt, nft.image, StrengthPercent, "", None)))
  }

  /** The effect's cleanup on unmount: any outstanding generation is cancelled. */
  function CancelGeneration(s: MutationState): (r: MutationState)
    ensures r.epoch > s.epoch
    ensures r.(epoch := s.epoch) == s
  {
    s.(epoch := s.epoch + 1)
  }

  /** A generation started by the effect settles. A stale ticket changes
      nothing; otherwise success shows the new image and failure shows the
      fixed message, never the provider's own error text. */
  function CompleteGeneration(s: MutationState, ticket: nat, outcome: Outcome<GeneratedImage>): (r: MutationState)
    ensures ticket != s.epoch ==> r == s
    ensures ticket == s.epoch && outcome.Ok? ==>
              r.status == Ready && r.result == Some(ResultOf(outcome.value)) && r.error == s.error
    ensures ticket == s.epoch && outcome.Err? ==>
              r.status == Error && r.error == Some(GenerationFailedMessage) && r.result == s.result
    ensures r.epoch == s.epoch && r.isMinting == s.isMinting
    ensures r.mintSuccessData == s.mintSuccessData && r.showSuccessModal == s.showSuccessModal
    ensures Wf(s) ==> Wf(r)
  {
    if ticket != s.epoch then s
    else match outcome
      case Ok(img) => s.(result := Some(ResultOf(img)), status := Ready)
      case Err(_) => s.(error := Some(GenerationFailedMessage), status := Error)
  }

  /** "Cast Again": regenerates from the ORIGINAL image with the retry prompt.
      The retry carries no cancellation ticket. */
  function BeginRetry(s: MutationState, nft: NftData): (r: (MutationState, GenerationRequest))
    ensures r.0.status == Generating && r.0.error == None
    ensures r.1 == GenerationRequest(RetryPrompt, nft.image, StrengthPercent, "", None)
    ensures r.0.(status := s.status, error := s.error) == s
    ensures Wf(s) ==> Wf(r.0)
  {
    (s.(status := Generating, error := None),
     GenerationRequest(RetryPrompt, nft.image, StrengthPercent, "", None))
  }

  function CompleteRetry(s: MutationState, outcome: Outcome<GeneratedImage>): (r: MutationState)
    ensures outcome.Ok? ==> r.status == Ready && r.result == Some(ResultOf(outcome.value))
    ensures outcome.Ok? ==> r.(status := s.status, result := s.result) == s
    ensures outcome.Err? ==> r.status == Error && r.error == Some(GenerationFailedMessage)
    ensures outcome.Err? ==> r.(status := s.status, error := s.error) == s
    ensures Wf(s) ==> Wf(r)
  {
    match outcome
    case Ok(img) => s.(result := Some(ResultOf(img)), status := Ready)
    case Err(_) => s.(error := Some(GenerationFailedMessage), status := Error)
  }

  /** The source image of a remix: the current mutated image when there is a
      prior result with a non-empty image, else the NFT's original image
      (JavaScript `previous?.mutatedImageUrl || nft.image`). */
  function RemixSource(previous: Option<MutationResult>, nft: NftData): (r: string)
    ensures previous.Some? && previous.value.mutatedImageUrl != "" ==> r == previous.value.mutatedImageUrl
    ensures !(previous.Some? && previous.value.mutatedImageUrl != "") ==> r == nft.image
  {
    if previous.Some? && previous.value.mutatedImageUrl != "" then previous.value.mutatedImageUrl
    else nft.image
  }

  /** "Try another costume": hides the current result while generating, and
      hands back the previous result, held by the action until it settles. */
  function BeginRemix(s: MutationState, nft: NftData): (r: (MutationState, GenerationRequest, Option<MutationResult>))
    ensures r.2 == s.result
    ensures r.0.status == Generating && r.0.result == None && r.0.error == None
    ensures r.1 == GenerationRequest(RemixPrompt, RemixSource(s.result, nft), StrengthPercent, "", Some(AlternativeCostume))
    ensures r.0.(status := s.status, result := s.result, error := s.error) == s
    ensures Wf(s) ==> Wf(r.0)
  {
    (s.(status := Generating, error := None, result := None),
     GenerationRequest(RemixPrompt, RemixSource(s.result, nft), StrengthPercent, "", Some(AlternativeCostume)),
     s.result)
  }

  /** A remix settles. Success replaces the result. Failure restores the
      previous result (back to `ready`, error cleared) when there was one, and
      only otherwise ends in `error`. */
  function CompleteRemix(s: MutationState, previous: Option<MutationResult>, outcome: Outcome<GeneratedImage>): (r: MutationState)
    ensures outcome.Ok? ==> r.status == Ready && r.result == Some(ResultOf(outcome.value))
    ensures outcome.Err? && previous.Some? ==> r.status == Ready && r.result == previous && r.error == None
    ensures outcome.Err? && previous.None? ==>
              r.status == Error && r.error == Some(RemixFailedMessage) && r.result == s.result
    ensures outcome.Ok? ==> r.error == s.error
    ensures r.(status := s.status, result := s.result, error := s.error) == s
    ensures Wf(s) ==> Wf(r)
  {
    match outcome
    case Ok(img) => s.(result := Some(ResultOf(img)), status := Ready)
    case Err(_) =>
      var failed := s.(error := Some(RemixFailedMessage), status := Error);
      if previous.Some? then failed.(result := previous, status := Ready, error := None)
      else failed
  }

  /** The mutated image is displayed, rather than the spinner or the error card. */
  predicate ImageShown(s: MutationState)
  {
    s.status == Ready && s.result.Some?
  }

  /** The "Cast Again" button sits on the error card. */
  predicate RetryVisible(s: MutationState)
  {
    s.status == Error
  }

  /** The remix button shows while ready and not minting. */
  predicate RemixVisible(s: MutationState)
  {
    s.status == Ready && !s.isMinting
  }

  /** The mint button's `disabled` attribute is the negation of this. */
  predicate MintButtonEnabled(s: MutationState)
  {
    s.status == Ready && !s.isMinting
  }

  /** What a settled generation puts on screen: success shows the image and
      offers remix and mint (unless a mint is running); failure shows the
      error card with its retry button and disables minting. */
  lemma GenerationOutcomeDecidesView(s: MutationState, outcome: Outcome<GeneratedImage>)
    ensures var r := CompleteGeneration(s, s.epoch, outcome);
            outcome.Ok? ==>
              ImageShown(r) && !RetryVisible(r) &&
              (RemixVisible(r) <==> !s.isMinting) && (MintButtonEnabled(r) <==> !s.isMinting)
    ensures var r := CompleteGeneration(s, s.epoch, outcome);
            outcome.Err? ==> RetryVisible(r) && !ImageShown(r) && !RemixVisible(r) && !MintButtonEnabled(r)
  {
  }

  /** A remix can only be started from a shown image, so a failed remix always
      falls back to a shown image: the user is never left at a dead end. */
  lemma FailedRemixKeepsPrior(s: MutationState, nft: NftData, f: Failure)
    requires Wf(s) && RemixVisible(s)
    ensures var (started, _, previous) := BeginRemix(s, nft);
            var settled := CompleteRemix(started, previous, Err(f));
            settled.status == Ready && settled.result == s.result && settled.error == None && ImageShown(settled)
  {
  }

  /** A completion from before the NFT changed (or the component unmounted) is
      discarded, whatever it carries. */
  lemma StaleGenerationDiscarded(s: MutationState, first: NftData, second: NftData, outcome: Outcome<GeneratedImage>)
    ensures var s1 := GenerationEffect(s, first).0;
            var ticket := s1.epoch;
            var s2 := GenerationEffect(s1, second).0;
            CompleteGeneration(s2, ticket, outcome) == s2 && CompleteGeneration(CancelGeneration(s1), ticket, outcome) == CancelGeneration(s1)
  {
  }

  /** Which provider error caused a failed generation makes no difference to
      the state: the raw error is never shown. */
  lemma GenerationFailureHidesProviderError(s: MutationState, ticket: nat, f1: Failure, f2: Failure)
    ensures CompleteGeneration(s, ticket, Err(f1)) == CompleteGeneration(s, ticket, Err(f2))
    ensures CompleteRetry(s, Err(f1)) == CompleteRetry(s, Err(f2))
  {
  }
}

=== FILE: outcomes.dfy ===
/** Values that stand for what an external collaborator (wallet, contract,
    content storage, image provider) answered. The application never sees
    the collaborators' code, only whether a call resolved or threw. */
module Outcomes {

  datatype Option<+T> = None | Some(value: T)

  /** The fields of a thrown error object that the application reads:
      `e.shortMessage` (set by the wallet library) and `e.message`. An absent
      field is `None`. */
  datatype Failure = Failure(shortMessage: Option<string>, message: Option<string>)

  /** A call into an external collaborator either resolves with a value or
      rejects with a failure. */
  datatype Outcome<+T> = Ok(value: T) | Err(failure: Failure)

  /** JavaScript truthiness of an optional string: present and non-empty. */
  predicate Truthy(s: Option<string>)
  {
    s.Some? && s.value != ""
  }

  /** `e?.shortMessage || e?.message || fallback`: the first truthy operand,
      else the fallback. */
  function FailureText(f: Failure, fallback: string): (r: string)
    ensures Truthy(f.shortMessage) ==> r == f.shortMessage.value
    ensures !Truthy(f.shortMessage) && Truthy(f.message) ==> r == f.message.value
    ensures !Truthy(f.shortMessage) && !Truthy(f.message) ==> r == fallback
    ensures fallback != "" ==> r != ""
  {
    if Truthy(f.shortMessage) then f.shortMessage.value
    else if Truthy(f.message) then f.message.value
    else fallback
  }
}

=== FILE: scenarios.dfy ===
/** End-to-end runs that cross the controller, the image workflow and the
    mint pipeline. */
module Scenarios {
  import opened Outcomes
  import opened Mutation
  import opened Minting
  import Workflow

  /** Generate from A, remix from B into C, mint: the pipeline materialises C,
      and the metadata it uploads points at C's uploaded copy, not at A or B. */
  lemma RemixedImageIsMinted(nft: NftData, b: GeneratedImage, c: GeneratedImage, oracle: MintOracle)
    requires nft.image != "" && b.imageUrl != ""
    requires oracle.blob.Ok? && oracle.imageUpload.Ok?
    ensures var (generating, request) := GenerationEffect(Init(), nft);
            var first := CompleteGeneration(generating, generating.epoch, Ok(b));
            var (remixing, remixRequest, previous) := BeginRemix(first, nft);
            var second := CompleteRemix(remixing, previous, Ok(c));
            var (minting, started) := BeginMint(second);
            var run := RunPipeline(nft, second.result.value, oracle);
            && request == Some(GenerationRequest(InitialPrompt, nft.image, StrengthPercent, "", None))
            && remixRequest.imageUrl == b.imageUrl
            && started && minting.isMinting
            && run.steps[0] == FetchImage(c.imageUrl)
            && |run.steps| >= 3
            && run.steps[2] == UploadMetadata(BuildMetadata(nft, oracle.imageUpload.value))
            && run.steps[2].metadata.image == oracle.imageUpload.value
  {
  }

  /** A failed remix after a successful generation can still be minted, and
      the pipeline then mints the image from before the remix. */
  lemma FailedRemixStillMintsPrior(nft: NftData, b: GeneratedImage, f: Failure, oracle: MintOracle)
    requires nft.image != ""
    ensures var (generating, _) := GenerationEffect(Init(), nft);
            var first := CompleteGeneration(generating, generating.epoch, Ok(b));
            var (remixing, _, previous) := BeginRemix(first, nft);
            var restored := CompleteRemix(remixing, previous, Err(f));
            MintGuard(restored) && RunPipeline(nft, restored.result.value, oracle).steps[0] == FetchImage(b.imageUrl)
  {
  }

  /** The NFT the controller auto-selects is the one whose image the
      mutation component starts generating from, and whose origin the
      metadata records. */
  lemma SelectedNftFeedsGeneration(w: Workflow.OwnedWarplet, imageUri: string)
    requires w.image != ""
    ensures var nft := Workflow.ToNftData(w);
            var (_, request) := GenerationEffect(Init(), nft);
            request.Some? && request.value.imageUrl == w.image &&
            BuildMetadata(nft, imageUri).origin == Origin(Workflow.WarpletContract, w.tokenId)
  {
  }
}

=== FILE: session.dfy ===
/** The wallet session as the components read it from the wallet library:
    whether a wallet is connected and, if any, its address. */
module Session {
  import opened Outcomes

  datatype Wallet = Wallet(isConnected: bool, address: Option<string>)
}

=== FILE: workflow.dfy ===
/** The application controller: environment detection, the mini-app
    lifecycle hooks, the bounded auto-connect loop, the owned-NFT load with
    its auto-selection, the selection click, and the priority cascade that
    decides which view is shown.

    The wallet session (connected flag, address, connector registry) is
    owned by the wallet library and enters as a parameter; so does the
    host-context loading flag. */
module Workflow {
  import opened Outcomes
  import opened Mutation
  import opened Session

  const WarpletContract: string := "0x699727F9E01A822EFdcf7333073f0461e5914b4E"
  const FarcasterConnectorId: string := "farcasterFrame"
  const MaxAutoConnectAttempts: nat := 3
  const OwnedLoadFailedMessage: string := "Unable to load your Warplets. Please try again."
  const DefaultNamePrefix: string := "Warplet #"

  /** One record of the owned-NFT query; absent fields are `None`, and an
      absent image is the empty string. */
  datatype OwnedWarplet = OwnedWarplet(
    tokenId: string,
    name: Option<string>,
    description: Option<string>,
    image: string,
    attributes: Option<seq<Attribute>>)

  datatype Connector = Connector(id: string, name: string)

  /** `error` is never assigned after its initial `null`; it is kept so the
      cascade has its error branch. */
  datatype AppState = AppState(
    error: Option<string>,
    autoConnecting: bool,
    isMiniApp: Option<bool>,
    owned: seq<OwnedWarplet>,
    ownedLoading: bool,
    ownedError: Option<string>,
    selected: Option<NftData>)

  datatype HostAction = SignalReady | RequestAddMiniApp

  /** What one auto-connect run did: loop iterations, the connectors passed
      to `connect`, the backoff waits, and whether a `connect` resolved. */
  datatype ConnectRun = ConnectRun(iterations: nat, connectCalls: seq<Connector>, waits: nat, connectResolved: bool)

  datatype View =
    | Loading
    | ErrorView(message: string)
    | DetectingEnvironment
    | MiniAppConnecting
    | BrowserConnect
    | OwnedLoadError(message: string)
    | NoWarplets(inMiniApp: bool)
    | ChooseWarplet(choices: seq<OwnedWarplet>)
    | PreparingSingle
    | MutationView(nft: NftData)

  function Init(): AppState
  {
    AppState(None, false, None, [], false, None, None)
  }

  /** Environment detection fails closed: an absent answer and a thrown
      error both mean "not a mini app". */
  function DetectedEnvironment(answer: Outcome<Option<bool>>): (inMiniApp: bool)
    ensures inMiniApp <==> answer == Ok(Some(true))
  {
    match answer
    case Ok(Some(b)) => b
    case Ok(None) => false
    case Err(_) => false
  }

  function ResolveEnvironment(s: AppState, answer: Outcome<Option<bool>>): (r: AppState)
    ensures r.isMiniApp == Some(DetectedEnvironment(answer))
    ensures r.(isMiniApp := s.isMiniApp) == s
  {
    s.(isMiniApp := Some(DetectedEnvironment(answer)))
  }

  /** The lifecycle hooks: outside a (resolved) mini app nothing is asked of
      the host; inside one both requests are made, the second even when the
      first threw. Their failures are swallowed, so the state is untouched. */
  function MiniAppReady(s: AppState, readyThrew: bool, addThrew: bool): (r: (AppState, seq<HostAction>))
    ensures r.0 == s
    ensures s.isMiniApp != Some(true) ==> r.1 == []
    ensures s.isMiniApp == Some(true) ==> r.1 == [SignalReady, RequestAddMiniApp]
  {
    if s.isMiniApp != Some(true) then (s, [])
    else (s, [SignalReady, RequestAddMiniApp])
  }

  /** The auto-connect effect's entry test. */
  predicate ShouldAutoConnect(s: AppState, wallet: Wallet)
  {
    s.isMiniApp == Some(true) && !wallet.isConnected && !s.autoConnecting
  }

  /** The effect starts a run (and raises the in-flight flag) only when its
      entry test passes. */
  function BeginAutoConnect(s: AppState, wallet: Wallet): (r: (AppState, bool))
    ensures r.1 <==> ShouldAutoConnect(s, wallet)
    ensures r.1 ==> r.0 == s.(autoConnecting := true)
    ensures !r.1 ==> r.0 == s
  {
    if ShouldAutoConnect(s, wallet) then (s.(autoConnecting := true), true) else (s, false)
  }

  /** The `finally` of a run: the in-flight flag is always cleared. */
  function FinishAutoConnect(s: AppState): (r: AppState)
    ensures !r.autoConnecting
    ensures r.(autoConnecting := s.autoConnecting) == s
  {
    s.(autoConnecting := false)
  }

  /** `connectors.find(c => c.id === "farcasterFrame")`. */
  function FindFarcaster(connectors: seq<Connector>): (r: Option<Connector>)
    ensures r.Some? ==> r.value in connectors && r.value.id == FarcasterConnectorId
    ensures r.None? <==> forall k :: 0 <= k < |connectors| ==> connectors[k].id != FarcasterConnectorId
    decreases |connectors|
  {
    if connectors == [] then None
    else if connectors[0].id == FarcasterConnectorId then Some(connectors[0])
    else FindFarcaster(connectors[1..])
  }

  /** The loop of one auto-connect run. `connectors` is the registry the run
      captured, so every iteration finds the same connector (or none), and
      `outcomes[k]` is how the `connect` call of iteration `k` settles. The
      loop makes at most three iterations and stops at the first `connect`
      that resolves; every failed or connector-less iteration waits. */
  method RunAutoConnect(connectors: seq<Connector>, outcomes: seq<Outcome<()>>) returns (run: ConnectRun)
    requires |outcomes| == MaxAutoConnectAttempts
    ensures 1 <= run.iterations <= MaxAutoConnectAttempts
    ensures forall k :: 0 <= k < |run.connectCalls| ==> run.connectCalls[k].id == FarcasterConnectorId
    ensures FindFarcaster(connectors).None? ==>
              run.connectCalls == [] && !run.connectResolved && run.iterations == MaxAutoConnectAttempts
    ensures FindFarcaster(connectors).Some? ==>
              run.connectCalls == seq(run.iterations, _ => FindFarcaster(connectors).value)
    ensures run.connectResolved <==>
              FindFarcaster(connectors).Some? && exists k :: 0 <= k < MaxAutoConnectAttempts && outcomes[k].Ok?
    ensures run.connectResolved ==>
              outcomes[run.iterations - 1].Ok? && forall k :: 0 <= k < run.iterations - 1 ==> outcomes[k].Err?
    ensures !run.connectResolved ==> run.iterations == MaxAutoConnectAttempts
    ensures run.waits == run.iterations - (if run.connectResolved then 1 else 0)
  {
    var attempt: nat := 0;
    var calls: seq<Connector> := [];
    var waits: nat := 0;
    var resolved := false;
    while attempt < MaxAutoConnectAttempts && !resolved
      invariant attempt <= MaxAutoConnectAttempts
      invariant FindFarcaster(connectors).None? ==> calls == [] && waits == attempt && !resolved
      invariant FindFarcaster(connectors).Some? ==> calls == seq(attempt, _ => FindFarcaster(connectors).value)
      invariant !resolved ==> forall k :: 0 <= k < attempt ==> FindFarcaster(connectors).None? || outcomes[k].Err?
      invariant resolved ==> 1 <= attempt && outcomes[attempt - 1].Ok? && FindFarcaster(connectors).Some?
      invariant resolved ==> forall k :: 0 <= k < attempt - 1 ==> outcomes[k].Err?
      invariant waits == attempt - (if resolved then 1 else 0)
      decreases MaxAutoConnectAttempts - attempt
    {
      var found := FindFarcaster(connectors);
      if found.Some? {
        calls := calls + [found.value];
        if outcomes[attempt].Ok? {
          resolved := true;
        } else {
          waits := waits + 1;
        }
      } else {
        waits := waits + 1;
      }
      attempt := attempt + 1;
    }
    run := ConnectRun(attempt, calls, waits, resolved);
  }

  /** A run that did not connect the wallet leaves the entry test passing
      again once its flag is cleared, so the effect starts another run: the
      cap of three bounds one run, not the whole session. */
  lemma FailedRunRearms(s: AppState, wallet: Wallet)
    requires ShouldAutoConnect(s, wallet)
    ensures var (running, started) := BeginAutoConnect(s, wallet);
            started && !ShouldAutoConnect(running, wallet) && ShouldAutoConnect(FinishAutoConnect(running), wallet)
  {
  }

  /** The NFT record built from an owned record: the collection's contract,
      and defaults for a missing name, description or attribute list. */
  function ToNftData(w: OwnedWarplet): (nft: NftData)
    ensures nft.tokenId == w.tokenId && nft.image == w.image
    ensures nft.contractAddress == WarpletContract
    ensures nft.name == (if Truthy(w.name) then w.name.value else DefaultNamePrefix + w.tokenId)
    ensures nft.description == (if Truthy(w.description) then w.description.value else "")
    ensures nft.attributes == (if w.attributes.Some? then w.attributes.value else [])
  {
    NftData(
      w.tokenId,
      WarpletContract,
      if Truthy(w.name) then w.name.value else DefaultNamePrefix + w.tokenId,
      if Truthy(w.description) then w.description.value else "",
      w.image,
      if w.attributes.Some? then w.attributes.value else [])
  }

  /** The load effect on connection or address change, as written: skipped
      without a connection and an address. The selection made for the
      previous address is kept. */
  function BeginOwnedLoadAsWritten(s: AppState, wallet: Wallet): (r: (AppState, bool))
    ensures r.1 <==> wallet.isConnected && Truthy(wallet.address)
    ensures r.1 ==> r.0 == s.(ownedLoading := true, ownedError := None)
    ensures !r.1 ==> r.0 == s
  {
    if !wallet.isConnected || !Truthy(wallet.address) then (s, false)
    else (s.(ownedLoading := true, ownedError := None), true)
  }

  /** The load effect with the selection forgotten whenever the connection or
      the address changes, so that an NFT is only ever shown for the address
      whose load selected it. */
  function BeginOwnedLoad(s: AppState, wallet: Wallet): (r: (AppState, bool))
    ensures r.0.selected == None
    ensures r.1 <==> wallet.isConnected && Truthy(wallet.address)
    ensures r.1 ==> r.0 == s.(ownedLoading := true, ownedError := None, selected := None)
    ensures !r.1 ==> r.0 == s.(selected := None)
  {
    var forgotten := s.(selected := None);
    if !wallet.isConnected || !Truthy(wallet.address) then (forgotten, false)
    else (forgotten.(ownedLoading := true, ownedError := None), true)
  }

  /** The "Cast Again" button of the load-error card: it checks only the
      address. */
  function BeginOwnedRetry(s: AppState, wallet: Wallet): (r: (AppState, bool))
    ensures r.1 <==> Truthy(wallet.address)
    ensures r.1 ==> r.0 == s.(ownedLoading := true, ownedError := None)
    ensures !r.1 ==> r.0 == s
  {
    if !Truthy(wallet.address) then (s, false)
    else (s.(ownedLoading := true, ownedError := None), true)
  }

  /** A load (initial or retried) settles. The list replaces the owned list,
      exactly one NFT becomes the selection without a click, and any other
      count leaves the selection as it was; a failure sets the fixed message
      and keeps the list. Loading ends either way. */
  function CompleteOwnedLoad(s: AppState, fetched: Outcome<seq<OwnedWarplet>>): (r: AppState)
    ensures !r.ownedLoading
    ensures fetched.Ok? ==> r.owned == fetched.value && r.ownedError == s.ownedError
    ensures fetched.Ok? && |fetched.value| == 1 ==> r.selected == Some(ToNftData(fetched.value[0]))
    ensures fetched.Ok? && |fetched.value| != 1 ==> r.selected == s.selected
    ensures fetched.Err? ==>
              r.ownedError == Some(OwnedLoadFailedMessage) && r.owned == s.owned && r.selected == s.selected
    ensures r.isMiniApp == s.isMiniApp && r.autoConnecting == s.autoConnecting && r.error == s.error
  {
    match fetched
    case Ok(nfts) =>
      var listed := s.(owned := nfts, ownedLoading := false);
      if |nfts| == 1 then listed.(selected := Some(ToNftData(nfts[0]))) else listed
    case Err(_) => s.(ownedError := Some(OwnedLoadFailedMessage), ownedLoading := false)
  }

  /** A click on one NFT of the grid selects it. */
  function Select(s: AppState, index: nat): (r: AppState)
    requires index < |s.owned|
    ensures r.selected == Some(ToNftData(s.owned[index]))
    ensures r.(selected := s.selected) == s
  {
    s.(selected := Some(ToNftData(s.owned[index])))
  }

  /** Nothing of higher priority than the wallet views applies: no context or
      owned-NFT load running, and no application error. */
  predicate Settled(s: AppState, contextLoading: bool)
  {
    !contextLoading && !s.ownedLoading && !Truthy(s.error)
  }

  /** Connected, settled, and no NFT selected yet: one of the no-selection
      views applies. */
  predicate Choosing(s: AppState, wallet: Wallet, contextLoading: bool)
  {
    Settled(s, contextLoading) && wallet.isConnected && s.selected.None?
  }

  /** The view, chosen in priority order: loading, error, the not-connected
      views (detecting, mini app, browser), the no-selection views (load
      error, empty, grid, single), and finally the mutation view. */
  function ViewOf(s: AppState, wallet: Wallet, contextLoading: bool): (v: View)
    ensures v == Loading <==> contextLoading || s.ownedLoading
    ensures v.ErrorView? <==> !contextLoading && !s.ownedLoading && Truthy(s.error)
    ensures v.ErrorView? ==> v.message == s.error.value
    ensures v.DetectingEnvironment? <==> Settled(s, contextLoading) && !wallet.isConnected && s.isMiniApp == None
    ensures v.MiniAppConnecting? <==>
              Settled(s, contextLoading) && !wallet.isConnected && s.isMiniApp == Some(true)
    ensures v.BrowserConnect? <==>
              Settled(s, contextLoading) && !wallet.isConnected && s.isMiniApp == Some(false)
    ensures v.OwnedLoadError? <==> Choosing(s, wallet, contextLoading) && Truthy(s.ownedError)
    ensures v.OwnedLoadError? ==> v.message == s.ownedError.value
    ensures v.NoWarplets? <==>
              Choosing(s, wallet, contextLoading) && !Truthy(s.ownedError) && |s.owned| == 0
    ensures v.NoWarplets? ==> (v.inMiniApp <==> s.isMiniApp == Some(true))
    ensures v.ChooseWarplet? <==>
              Choosing(s, wallet, contextLoading) && !Truthy(s.ownedError) && |s.owned| > 1
    ensures v.ChooseWarplet? ==> v.choices == s.owned
    ensures v == PreparingSingle <==>
              Choosing(s, wallet, contextLoading) && !Truthy(s.ownedError) && |s.owned| == 1
    ensures v.MutationView? <==> Settled(s, contextLoading) && wallet.isConnected && s.selected.Some?
    ensures v.MutationView? ==> v.nft == s.selected.value
  {
    if contextLoading || s.ownedLoading then Loading
    else if Truthy(s.error) then ErrorView(s.error.value)
    else if !wallet.isConnected then
      match s.isMiniApp
      case None => DetectingEnvironment
      case Some(inMiniApp) => if inMiniApp then MiniAppConnecting else BrowserConnect
    else if s.selected.None? then
      if Truthy(s.ownedError) then OwnedLoadError(s.ownedError.value)
      else if |s.owned| == 0 then NoWarplets(s.isMiniApp == Some(true))
      else if |s.owned| > 1 then ChooseWarplet(s.owned)
      else PreparingSingle
    else MutationView(s.selected.value)
  }

  /** Exactly one owned NFT, from the initial load or from the retry, goes
      straight to the mutation view without a click. */
  lemma SingleOwnedAutoSelects(s: AppState, wallet: Wallet, w: OwnedWarplet, retry: bool)
    requires wallet.isConnected && Truthy(wallet.address) && !Truthy(s.error)
    ensures var (loading, started) := if retry then BeginOwnedRetry(s, wallet) else BeginOwnedLoadAsWritten(s, wallet);
            started && ViewOf(loading, wallet, false) == Loading &&
            ViewOf(CompleteOwnedLoad(loading, Ok([w])), wallet, false) == MutationView(ToNftData(w))
  {
  }

  /** As written: one address loads a single NFT, which is selected; the
      wallet switches to an address owning none, or several; the previous
      address's NFT is still the one shown. */
  lemma AsWrittenSwitchKeepsPreviousNft(s: AppState, wallet: Wallet, other: Wallet,
                                        wa: OwnedWarplet, w1: OwnedWarplet, w2: OwnedWarplet)
    requires wallet.isConnected && Truthy(wallet.address) && !Truthy(s.error)
    requires other.isConnected && Truthy(other.address)
    ensures var first := CompleteOwnedLoad(BeginOwnedLoadAsWritten(s, wallet).0, Ok([wa]));
            var (switched, started) := BeginOwnedLoadAsWritten(first, other);
            started &&
            ViewOf(CompleteOwnedLoad(switched, Ok([])), other, false) == MutationView(ToNftData(wa)) &&
            ViewOf(CompleteOwnedLoad(switched, Ok([w1, w2])), other, false) == MutationView(ToNftData(wa))
  {
  }

  /** With the corrected effect, from any prior state, whatever was selected
      before: the load for the connected address decides the view alone. No
      NFT shows the empty state, several show the grid, and exactly one goes
      to the mutation view; a failed load shows its error card. */
  lemma CorrectedLoadDecidesView(s: AppState, wallet: Wallet, fetched: Outcome<seq<OwnedWarplet>>)
    requires wallet.isConnected && Truthy(wallet.address) && !Truthy(s.error)
    ensures var (loading, started) := BeginOwnedLoad(s, wallet);
            var v := ViewOf(CompleteOwnedLoad(loading, fetched), wallet, false);
            started && ViewOf(loading, wallet, false) == Loading &&
            (fetched.Err? ==> v == OwnedLoadError(OwnedLoadFailedMessage)) &&
            (fetched.Ok? && |fetched.value| == 0 ==> v == NoWarplets(s.isMiniApp == Some(true))) &&
            (fetched.Ok? && |fetched.value| > 1 ==> v == ChooseWarplet(fetched.value)) &&
            (fetched.Ok? && |fetched.value| == 1 ==> v == MutationView(ToNftData(fetched.value[0])))
  {
  }

  /** With no NFT selected yet, several owned NFTs show the grid, and only a
      click leads to the mutation view, with the clicked NFT. */
  lemma SeveralOwnedNeedAClick(s: AppState, wallet: Wallet, nfts: seq<OwnedWarplet>, index: nat)
    requires wallet.isConnected && !Truthy(s.error) && s.selected == None && !Truthy(s.ownedError)
    requires |nfts| > 1 && index < |nfts|
    ensures var listed := CompleteOwnedLoad(s.(ownedLoading := true), Ok(nfts));
            ViewOf(listed, wallet, false) == ChooseWarplet(nfts) &&
            ViewOf(Select(listed, index), wallet, false) == MutationView(ToNftData(nfts[index]))
  {
  }

  /** With no NFT selected yet, no owned NFT shows the empty state. */
  lemma NoneOwnedShowsEmpty(s: AppState, wallet: Wallet)
    requires wallet.isConnected && !Truthy(s.error) && s.selected == None && !Truthy(s.ownedError)
    ensures var listed := CompleteOwnedLoad(s.(ownedLoading := true), Ok([]));
            ViewOf(listed, wallet, false) == NoWarplets(s.isMiniApp == Some(true)) && listed.selected == None
  {
  }

  /** The inputs the controller reacts to. */
  datatype AppEvent =
    | EnvironmentAnswered(answer: Outcome<Option<bool>>)
    | HooksRan(readyThrew: bool, addThrew: bool)
    | AutoConnectStarted(startWallet: Wallet)
    | AutoConnectFinished
    | OwnedLoadStarted(loadWallet: Wallet)
    | OwnedRetryStarted(retryWallet: Wallet)
    | OwnedLoadSettled(fetched: Outcome<seq<OwnedWarplet>>)
    | Clicked(index: nat)

  function ApplyApp(s: AppState, e: AppEvent): (r: AppState)
  {
    match e
    case EnvironmentAnswered(answer) => ResolveEnvironment(s, answer)
    case HooksRan(readyThrew, addThrew) => MiniAppReady(s, readyThrew, addThrew).0
    case AutoConnectStarted(wallet) => BeginAutoConnect(s, wallet).0
    case AutoConnectFinished => FinishAutoConnect(s)
    case OwnedLoadStarted(wallet) => BeginOwnedLoadAsWritten(s, wallet).0
    case OwnedRetryStarted(wallet) => BeginOwnedRetry(s, wallet).0
    case OwnedLoadSettled(fetched) => CompleteOwnedLoad(s, fetched)
    case Clicked(index) => if index < |s.owned| then Select(s, index) else s
  }

  function ReplayApp(s: AppState, events: seq<AppEvent>): (r: AppState)
    decreases |events|
  {
    if events == [] then s else ReplayApp(ApplyApp(s, events[0]), events[1..])
  }

  /** Once the environment is resolved it is never "detecting" again, and
      the never-assigned error stays unset, whatever happens next. */
  lemma {:induction false} EnvironmentStaysResolved(s: AppState, events: seq<AppEvent>)
    requires s.isMiniApp.Some?
    ensures ReplayApp(s, events).isMiniApp.Some?
    ensures ReplayApp(s, events).error == s.error
    decreases |events|
  {
    if events != [] {
      EnvironmentStaysResolved(ApplyApp(s, events[0]), events[1..]);
    }
  }
}
